=== FILE: README.md ===
# Medicine Sales System: a Dafny model of its page logic

The Medicine Sales System is a single-page point-of-sale front end for a
pharmacy. Its backend is a Google Apps Script. The page keeps an inventory
snapshot fetched from the backend and a session (`role`, `sessionId`). It
offers a sale form, an inventory form, a search box with a status filter,
and a shop valuation. Nearly all of the page is DOM templating. This project
models the deterministic rules underneath it as pure Dafny functions over
already-read field values, and proves what those rules promise.

Modules, one per component:

- `Results`: `Result` and `Option`, used for every refusal the page shows in a modal or toast.
- `Text`: the string operations the page relies on.
  - `trim`, with the exact ECMAScript whitespace set.
  - ASCII `toLowerCase`.
  - `includes`.
  - the date pattern `^\d{4}-\d{2}-\d{2}$`.
- `Seqs`: order-preserving filter, map and sum, with the facts the other modules need about them (subsequence, multiset counts, permutation invariance, `reduce` = sum).
- `Inventory` (`scripts.js`): the inventory snapshot and the rules derived from it.
  - stock-status classification and its two inline copies;
  - the search-and-status filter;
  - shop worth;
  - the in-stock options of a sale row;
  - lookup by trimmed, lower-cased name.
- `SaleForm` (`scripts.js`): the "Record Sale" form.
  - the quantity clamp and the price lookup of a row;
  - the row counter and the add/remove-row buttons;
  - the running summary (a loop method);
  - the ordered, first-failure-wins submission checks and the sale payload.
- `ItemForm` (`scripts.js`): the "Manage Inventory" form. It covers the add and update checks (including the case-insensitive duplicate-name check of adding) and the payloads.
- `Session` (`app.js`): the session state and the backend call.
  - `callGasFunction`'s reply normalisation;
  - `login` split into its synchronous start and its settled end;
  - `logout`.

Conventions:

- Money is an integer count of minor units (pesewas).
- Quantities, stock and reorder levels are integers.
- `sanitizeInput` and `stripHtml` are the identity on the plain strings modelled.
- The backend call is a parameter: `Session.Delivery` is what the POST produced.

Facts about the code that the model follows as written:

- The sale date is checked only against the date pattern. The future-date limit is the date input's `max` attribute, which the script does not enforce.
- The quantity clamp can yield 0: with a stock of 0 it sets a positive quantity to 0 (`SaleForm.ValidateQuantityWithoutStock`).
- No code path in `app.js` reports an invalid or expired session.
- `determineStatus` (scripts.js:736-745) is never called. The table and the search filter each carry their own inline copy of the same chain. The model defines the rule once and proves that the inline form agrees with it.
- A negative stock is classified as it runs: "Low Stock" when it is at or below the reorder level, and "In Stock" otherwise.

## Model

| member | source | states |
|---|---|---|
| Text.TrimSpec | scripts.js:749 | `trim` yields a contiguous slice of the input with only whitespace cut off either side, leaves no whitespace at either end, and yields "" exactly when the text is all whitespace |
| Text.TrimIdempotent | scripts.js:754 | trimming an already trimmed name changes nothing, so comparing trimmed names with a trimmed input is stable |
| Text.ContainsIffOccurs | scripts.js:932 | `includes` holds exactly when the needle occurs at some offset of the haystack |
| Text.IsoDateShape | scripts.js:354 | the date pattern accepts exactly ten characters with `-` at positions 4 and 7 and decimal digits elsewhere |
| Inventory.DetermineStatus | scripts.js:736-745 | a total three-way partition: Out of Stock iff stock is 0, Low Stock iff stock is non-zero and at most the reorder level (equality counts as Low), otherwise In Stock |
| Inventory.InlineStatus | scripts.js:648-656 | the inline chain of the table renderer (repeated at scripts.js:934-941) gives the same status as the classification |
| Inventory.LabelInjective | scripts.js:657 | the three status labels are distinct, so comparing labels is comparing statuses |
| Inventory.SearchItems | scripts.js:928-944 | the filtered table is an order-preserving subsequence of the snapshot holding exactly the items whose trimmed lower-cased name contains the trimmed lower-cased search text and whose status label equals the filter (any status for an empty filter), each as often as in the snapshot |
| Inventory.SearchAllShowsEverything | scripts.js:929-942 | a blank search box with the "All" filter shows the whole snapshot in order |
| Inventory.SearchByStatusOnly | scripts.js:942 | an empty search with a status filter keeps exactly the items of that status |
| Inventory.ShopWorth | scripts.js:916-922 | the shop's worth is the sum of cost times stock over the snapshot |
| Inventory.ShopWorthOrderIndependent | scripts.js:918-922 | reordering the snapshot leaves the worth unchanged |
| Inventory.ShopWorthNonNegative | scripts.js:918-922 | a snapshot without negative cost or stock is worth at least zero |
| Inventory.SaleOptions | scripts.js:218-222 | a new sale row offers one option per item with stock above zero and no other, in snapshot order, each option naming the trimmed item name and its stock |
| Inventory.FindByKey | scripts.js:285 | `find` by name returns the first item whose trimmed lower-cased name equals the key, and nothing exactly when no item has it |
| Inventory.FindByKeyUnique | scripts.js:285 | with names unique up to trimming and case, the lookup finds the one item carrying the key |
| SaleForm.ValidateQuantity | scripts.js:302-313 | with stock at least 1 the quantity ends in `1..stock`; an in-range quantity is kept, one below 1 becomes 1, one above stock becomes stock |
| SaleForm.ValidateQuantityIdempotent | scripts.js:302-313 | with stock at least 1, clamping twice is clamping once |
| SaleForm.ValidateQuantityWithoutStock | scripts.js:302-313 | with stock 0 the clamp sends 5 to 0 and 0 to 1, so it is not idempotent there |
| SaleForm.UpdatePrice | scripts.js:268-300 | a blank selection resets price, stock and quantity; an unknown name clears the row; a known name copies that item's price and stock and lowers a larger quantity to the stock |
| SaleForm.ChosenOptionRowIsValid | scripts.js:219-300 | in a snapshot whose names are unique up to trimming and case, choosing the option of an in-stock item with a non-blank name and a positive price, with quantity at least 1, yields a row that passes every submission check |
| SaleForm.ChosenOptionOnNameCollision | scripts.js:285-297 | without unique names the lookup can pick another item: with an out-of-stock "zinc" sorted before an in-stock "Zinc", choosing "Zinc" copies stock 0, lowers the quantity to 0, and the row is refused for an invalid quantity |
| SaleForm.RowError | scripts.js:368-385 | a row passes exactly when its item is non-blank, 0 < quantity <= stock and unit price > 0; the first failing check is reported, in the order blank item (with its row number), quantity not positive, quantity above stock (with the stock), unit price not positive |
| SaleForm.CollectLines | scripts.js:364-391 | the rows yield lines exactly when every row passes, one line per row in order; otherwise the error is that of the first failing row |
| SaleForm.ValidateSale | scripts.js:351-361 | an invalid date is reported before anything else, then an invalid payment method; an accepted sale carries the date and payment method read |
| SaleForm.ValidateSaleAccepts | scripts.js:351-402 | a sale is produced exactly when the date matches the pattern, the payment method is Cash or Momo, at least one row is visited and every visited row passes |
| SaleForm.ValidateSaleFirstFailure | scripts.js:364-397 | after the date and payment checks the refusal is the first failing row's, and "no items" is reported exactly when no row was visited |
| SaleForm.ValidateSalePayload | scripts.js:386-402 | an accepted sale has one line per visited row in order, each with 0 < quantity <= stock and a positive price, and a grand total equal to the positive sum of quantity times unit price |
| SaleForm.GrandTotalOrderIndependent | scripts.js:401 | the same rows in another order give a sale with the same grand total |
| SaleForm.VisitedIsAll | scripts.js:318-320 | when row numbers increase and stay within `1..itemRows`, the loop over `1..itemRows` visits every live row in document order |
| SaleForm.AddItemRow | scripts.js:245-256 | adding a row increments the counter, appends a blank row carrying the new counter value, and keeps the numbering well formed |
| SaleForm.RemoveItemRow | scripts.js:258-265 | as written: with a counter above 1 and the row present, exactly the first row numbered `id` is removed, the others keep their order, and the counter drops by one; otherwise nothing changes |
| SaleForm.RemoveItemRowFixed | scripts.js:258-265 | the corrected removal keeps the counter, refuses to remove the last live row, and keeps the numbering well formed |
| SaleForm.FixedFormVisitsEveryRow | scripts.js:258-265 | with the corrected removal, from any well-numbered form and after any sequence of row additions and removals, the summary and the submission visit exactly the live rows |
| SaleForm.DisplaySalesForm | scripts.js:187-190 | displaying the sale form draws a single blank row 1 and leaves the counter as it was; any counter of at least 1 gives a well-numbered form |
| SaleForm.DisplayedFormsVisitEveryRow | scripts.js:167-216 | with the corrected removal, the first display and every re-display of the form (whatever counter is left over) keep the visit equal to the live rows under any sequence of additions and removals |
| SaleForm.RemoveRowDropsLastRow | scripts.js:258-265 | as written, adding two rows and removing row 2 leaves rows 1 and 3 live with a counter of 2, and the visit finds row 1 only |
| SaleForm.RemoveRowLosesSaleLine | scripts.js:364-402 | as written, after that removal a filled-in form submits a sale of one line worth 500, while its two live rows are worth 800 |
| SaleForm.UpdateSummary | scripts.js:315-331 | the summary lists the visited rows with a selected item, in order, each with quantity times price, and its total is the sum of those subtotals; on a well-numbered form that is every live row with an item |
| SaleForm.SummaryTotalOrderIndependent | scripts.js:315-331 | the summary total over a set of rows does not depend on their order |
| SaleForm.SubmitSale | scripts.js:351-402 | submitting validates the visited rows, which on a well-numbered form are all live rows; an accepted sale has one line per visited row |
| ItemForm.FieldError | scripts.js:759-783 | the shared field checks fail exactly when a field is malformed, reporting stock, then cost, then price, then purchase date, then reorder level |
| ItemForm.AddItem | scripts.js:747-791 | adding is accepted exactly when the trimmed name is non-empty, no item's trimmed lower-cased name equals it lower-cased, and every field is well formed; refusals come in that order; the payload carries the trimmed name and the fields read |
| ItemForm.AddItemKeepsNamesUnique | scripts.js:754-758 | appending an accepted new item to a snapshot with unique names keeps names unique up to trimming and case |
| ItemForm.AddItemRefusesCaseVariant | scripts.js:754-758 | " ZINC " is refused as a duplicate of a stored "Zinc" |
| ItemForm.UpdateItem | scripts.js:815-860 | editing is refused without a selection, then for a blank name or a malformed field, with no duplicate-name check, then for a selection outside the snapshot; an accepted edit carries the selected item's row and the fields read |
| ItemForm.AddAndUpdateAgree | scripts.js:747-860 | with a valid selection, editing refuses exactly as adding does apart from the duplicate-name refusal, and both payloads agree field by field |
| ItemForm.UpdateAcceptsTakenName | scripts.js:815-860 | `updateItem` itself has no duplicate-name check: given another item's name with a valid selection, it accepts the edit |
| ItemForm.SelectionFor | scripts.js:688-705 | typing selects the first item whose trimmed name equals the trimmed text, case-sensitively, and selects nothing exactly when no item's trimmed name equals it |
| ItemForm.EditKeepsTrimmedName | scripts.js:671-705 | with a selection the page can hold (from typing in the name field, which reruns the selection on every keystroke, or a table click that writes the item's trimmed name into the field), an accepted edit sends the selected item's own trimmed name, so the page never renames an item; a typed name no item has leaves the edit refused for lack of a selection |
| Session.CallGasFunction | app.js:37-55 | a reply with its `error` set fails with that message, a reply without one returns its `data`, and a transport failure is passed on unchanged |
| Session.BeginLogin | app.js:57-65 | a blank trimmed username or an empty password is refused before any call; otherwise the button is disabled and the trimmed username and password are sent |
| Session.FinishLogin | app.js:67-88 | a successful reply installs its role and session id and shows the main screen; a failed reply or thrown error leaves the session untouched and shows a modal; the button is enabled again on every path |
| Session.Login | app.js:57-88 | a refused login leaves the whole state unchanged; a started one always ends with the button enabled |
| Session.LoginOutcome | app.js:69-84 | a started login installs the backend's role and session id exactly when the reply has no error and reports success; otherwise role, session id and screen are unchanged |
| Session.LoginFailureMessage | app.js:69-84 | the failure modal shows the reply's `error`, else its message, else "Login failed"; a transport failure shows its message, else "Failed to connect to server" |
| Session.Logout | app.js:90-98 | logging out clears role and session id, shows the login form and empties its inputs |
| Session.LogoutIdempotent | app.js:90-98 | logging out twice is logging out once |
| Session.LogoutAfterLogin | app.js:57-98 | from an idle page, logging out after any login returns the page to its first-loaded state |

## Left out

- DOM reads and writes, HTML templating, modals, toasts, button styling and the loading indicator: the model keeps only the values read and the results produced (`Session.Notice` stands for the toast or modal text).
- `google.script.run`, `fetch`, `withTimeout` and the loading auto-hide timer are asynchronous transport. The backend's answer is an input (`Session.Delivery`). The "demo mode" branch that refuses when `google.script.run` is missing is not modelled.
- What happens after a sale, add or edit is sent (the success or failure message, clearing the form, reloading the inventory) is transport and UI.
- `sanitizeInput` and `stripHtml` use the browser's HTML parser. Here they are the identity on plain strings.
- Text.Lower: lower-cases only ASCII `A`-`Z`, where `toLowerCase` maps all of Unicode; two names differing only in non-ASCII case are treated as distinct here.
- The `parseInt`/`parseFloat` `|| 0` coercions and `Number.isInteger`/`isNaN` are not modelled. Every numeric field is taken as an already-parsed integer. Money is in minor units rather than floating point, and `toFixed` is not modelled.
- Session.Response: the backend's `error` field is a string, with "" standing for absent. A non-string truthy `error` (and its conversion to a message) is not modelled.
- Session.FinishLogin: a reply with no `data` at all, which makes `result.success` throw, is not modelled. The reply is always a `LoginReply` record.
- SaleForm.RemoveItemRow: accepts any row number. The page shows a Remove button only on rows drawn while the counter was above 1 (scripts.js:240). That includes row 1 when the form is re-displayed with a counter left above 1 (scripts.js:189). Which buttons are shown is not modelled.
- SaleForm.DisplaySalesForm: with an empty inventory the page draws a notice instead of the form (scripts.js:169-172); the function models only the non-empty case, and takes no snapshot.
- SaleForm.AddItemRow: the price refresh the page runs on the new row (scripts.js:251) is not part of the function. `updatePrice(itemRows)` refreshes the first element numbered `itemRows`. After an as-written removal that number can already belong to an older, filled-in row, which is then the row refreshed. That refresh is `SaleForm.UpdatePrice` applied to whichever row `SaleForm.RowIndex` finds first.
- ItemForm.UpdateItem: a selection outside the snapshot is returned as `StaleSelection`. The page itself throws a TypeError at `item.row` (scripts.js:853) and sends nothing.
- ItemForm.UpdateItem: a table click (`selectItem`, scripts.js:671-673) uses the clicked row's position in the table as shown as an index into the whole snapshot. After a search filters the table (scripts.js:956), a click can therefore select a different item from the one clicked. The model takes the selection as given and does not relate table positions to snapshot items.
- The name autocomplete (`filterInventoryItems`), `clearForm`, `deleteItem`, `deleteLastSale`, `showTodaysSalesBreakdown`, the sales reports and PDF export are UI or pure backend calls with no rule of their own. The selection rules of `checkItemSelection` and `selectItem` are modelled by `ItemForm.SelectionFor` and `ItemForm.PageSelection`.
- The `localeCompare` sort of the sale form and "today's date" (`new Date()`) depend on the locale and the wall clock.
- `service-worker.js` (cache and network plumbing) and `window.onerror`.
- The inline `onclick`/`onchange` handlers in the generated HTML name functions that are private to the `DOMContentLoaded` closure. Whether they resolve at run time is a wiring matter and is not modelled: the model treats each handler as the function it names.

## Findings

| source | as written | input that shows it | evidently intended | confidence | as-written member | corrected member |
|---|---|---|---|---|---|---|
| scripts.js:258-265 | `removeItemRow` decrements the row counter `itemRows`, but the other rows keep their numbers. The summary and the submission loop over the numbers `1..itemRows` (scripts.js:318, scripts.js:364), so after a middle row is removed the highest-numbered live row is never visited. | Add two rows (rows 1, 2, 3), remove row 2, fill rows 1 and 3. The summary and the submitted sale contain row 1 only: one line totalling 500 instead of two lines totalling 800. | Every live row is summarised and submitted. The counter must stay the highest number handed out, and the last-row guard must count live rows. | high, not executed | SaleForm.RemoveRowLosesSaleLine | SaleForm.FixedFormVisitsEveryRow |

=== FILE: inventory.dfy ===
/**
 * The inventory snapshot and the pure rules the page derives from it:
 * stock status, the search-and-status filter, shop valuation, the in-stock
 * option list of the sale form and the name lookup.
 */
module Inventory {
  import opened Results
  import opened Text
  import opened Seqs

  /**
   * One record of the snapshot as the page holds it after a fetch. Money
   * (`price`, `cost`) is in minor units (pesewas); `row` is the backend's
   * row number, the only handle an edit or delete sends back.
   */
  datatype Item = Item(
    row: int,
    name: string,
    price: int,
    cost: int,
    stock: int,
    reorderLevel: int,
    purchaseDate: string)

  type Snapshot = seq<Item>

  datatype StockStatus = OutOfStock | LowStock | InStock

  /** The text shown in the status column and offered by the status filter. */
  function Label(st: StockStatus): string {
    match st
    case OutOfStock => "Out of Stock"
    case LowStock => "Low Stock"
    case InStock => "In Stock"
  }

  lemma LabelInjective(a: StockStatus, b: StockStatus)
    ensures Label(a) == Label(b) <==> a == b
  {
  }

  /**
   * Three-way stock classification. A stock equal to the reorder level is
   * Low Stock. The partition is stated on all integers, as the code runs it:
   * a negative stock at or below the reorder level is Low Stock too.
   */
  function DetermineStatus(stock: int, reorderLevel: int): (st: StockStatus)
    ensures st == OutOfStock <==> stock == 0
    ensures st == LowStock <==> stock != 0 && stock <= reorderLevel
    ensures st == InStock <==> stock != 0 && reorderLevel < stock
    ensures stock >= 0 ==> (st == LowStock <==> 0 < stock <= reorderLevel)
  {
    if stock == 0 then OutOfStock
    else if stock <= reorderLevel then LowStock
    else InStock
  }

  /**
   * The classification as it is written inline in the table renderer and in
   * the search filter, over an item rather than over two numbers.
   */
  function InlineStatus(item: Item): (st: StockStatus)
    ensures st == DetermineStatus(item.stock, item.reorderLevel)
  {
    var stock := item.stock;
    if stock == 0 then OutOfStock
    else if stock <= item.reorderLevel then LowStock
    else InStock
  }

  /** The status filter: an empty filter accepts every status, any other text only its own label. */
  predicate StatusMatches(st: StockStatus, filter: string) {
    filter == "" || Label(st) == filter
  }

  /** Whether one item passes the search box and the status filter. */
  predicate MatchesSearch(item: Item, searchValue: string, filter: string) {
    Contains(NameKey(item.name), searchValue) && StatusMatches(InlineStatus(item), filter)
  }

  /**
   * The rows the inventory table shows after typing `searchInput` and
   * choosing `filter`: the search text is trimmed and lower-cased, and an
   * item passes when its trimmed lower-cased name contains it and its
   * status matches the filter.
   */
  function SearchItems(snapshot: Snapshot, searchInput: string, filter: string): (r: Snapshot)
    ensures IsSubsequence(r, snapshot)
    ensures forall it :: it in r <==>
              && it in snapshot
              && Contains(NameKey(it.name), NameKey(searchInput))
              && (filter == "" || Label(DetermineStatus(it.stock, it.reorderLevel)) == filter)
    ensures forall it :: multiset(r)[it] ==
              if MatchesSearch(it, NameKey(searchInput), filter) then multiset(snapshot)[it] else 0
  {
    var searchValue := NameKey(searchInput);
    var p := (it: Item) => MatchesSearch(it, searchValue, filter);
    FilterIsSubsequence(snapshot, p);
    FilterMultiset(snapshot, p);
    FilterMembers(snapshot, p);
    Filter(snapshot, p)
  }

  /** With an empty search box and the "All" filter the whole snapshot is shown, in order. */
  lemma {:induction false} SearchAllShowsEverything(snapshot: Snapshot, blank: string)
    requires forall i :: 0 <= i < |blank| ==> IsWhitespace(blank[i])
    ensures SearchItems(snapshot, blank, "") == snapshot
    decreases |snapshot|
  {
    TrimSpec(blank);
    assert NameKey(blank) == "";
    if |snapshot| > 0 {
      SearchAllShowsEverything(snapshot[1..], blank);
      ContainsEmpty(NameKey(snapshot[0].name));
      var p := (it: Item) => MatchesSearch(it, "", "");
      assert SearchItems(snapshot, blank, "") == Filter(snapshot, p);
      assert SearchItems(snapshot[1..], blank, "") == Filter(snapshot[1..], p);
      assert p(snapshot[0]);
    }
  }

  /** With an empty search box, filtering by a status label keeps exactly the items of that status. */
  lemma SearchByStatusOnly(snapshot: Snapshot, st: StockStatus)
    ensures forall it :: it in SearchItems(snapshot, "", Label(st)) <==>
              it in snapshot && DetermineStatus(it.stock, it.reorderLevel) == st
  {
    var r := SearchItems(snapshot, "", Label(st));
    forall it | it in snapshot
      ensures Contains(NameKey(it.name), NameKey(""))
    {
      ContainsEmpty(NameKey(it.name));
    }
  }

  /** The valuation of one item: unit cost times stock on hand. */
  function ItemWorth(item: Item): int {
    item.cost * item.stock
  }

  /**
   * The shop's worth as the `reduce` in the valuation button computes it,
   * which is the sum of cost times stock over the whole snapshot.
   */
  function ShopWorth(snapshot: Snapshot): (w: int)
    ensures w == SumOf(snapshot, ItemWorth)
  {
    FoldSumIsSum(0, snapshot, ItemWorth);
    FoldSum(0, snapshot, ItemWorth)
  }

  /** Reordering the snapshot does not change the shop's worth. */
  lemma ShopWorthOrderIndependent(a: Snapshot, b: Snapshot)
    requires multiset(a) == multiset(b)
    ensures ShopWorth(a) == ShopWorth(b)
  {
    SumOfPermutation(a, b, ItemWorth);
  }

  /** A snapshot of well-formed items (no negative cost or stock) is never worth less than zero. */
  lemma ShopWorthNonNegative(snapshot: Snapshot)
    requires forall i :: 0 <= i < |snapshot| ==> snapshot[i].cost >= 0 && snapshot[i].stock >= 0
    ensures ShopWorth(snapshot) >= 0
  {
    forall i | 0 <= i < |snapshot|
      ensures ItemWorth(snapshot[i]) >= 0
    {
      assert snapshot[i].cost * snapshot[i].stock >= 0;
    }
    SumOfNonNegative(snapshot, ItemWorth);
  }

  /** One entry of a sale row's item drop-down: trimmed name, default unit price, stock shown. */
  datatype SaleOption = SaleOption(value: string, price: int, stock: int)

  function OptionFor(item: Item): SaleOption {
    SaleOption(Trim(item.name), item.price, item.stock)
  }

  predicate HasStock(item: Item) {
    item.stock > 0
  }

  /**
   * The drop-down of a new sale row: one option per item with stock above
   * zero, in snapshot order; items out of stock (or with negative stock)
   * cannot be chosen.
   */
  function SaleOptions(snapshot: Snapshot): (r: seq<SaleOption>)
    ensures |r| == |Filter(snapshot, HasStock)|
    ensures IsSubsequence(r, Map(snapshot, OptionFor))
    ensures forall o :: o in r ==> o.stock > 0
    ensures forall o :: o in r ==> exists it :: it in snapshot && it.stock > 0 && OptionFor(it) == o
    ensures forall it :: it in snapshot && it.stock > 0 ==> OptionFor(it) in r
  {
    var inStock := Filter(snapshot, HasStock);
    OptionsComeFromItems(snapshot, inStock);
    FilterIsSubsequence(snapshot, HasStock);
    MapSubsequence(inStock, snapshot, OptionFor);
    Map(inStock, OptionFor)
  }

  lemma OptionsComeFromItems(snapshot: Snapshot, inStock: Snapshot)
    requires inStock == Filter(snapshot, HasStock)
    ensures forall o :: o in Map(inStock, OptionFor) ==>
              o.stock > 0 && exists it :: it in snapshot && it.stock > 0 && OptionFor(it) == o
    ensures forall it :: it in snapshot && it.stock > 0 ==> OptionFor(it) in Map(inStock, OptionFor)
  {
    FilterMembers(snapshot, HasStock);
    var r := Map(inStock, OptionFor);
    forall o | o in r
      ensures o.stock > 0 && exists it :: it in snapshot && it.stock > 0 && OptionFor(it) == o
    {
      var i :| 0 <= i < |r| && r[i] == o;
      assert inStock[i] in inStock;
      assert HasStock(inStock[i]);
    }
    forall it | it in snapshot && it.stock > 0
      ensures OptionFor(it) in r
    {
      assert HasStock(it);
      assert it in inStock;
      var i :| 0 <= i < |inStock| && inStock[i] == it;
      assert r[i] == OptionFor(it);
    }
  }

  /** Whether `item`'s trimmed, lower-cased name is `key`. */
  predicate HasKey(item: Item, key: string) {
    NameKey(item.name) == key
  }

  /**
   * `inventoryData.find(...)` by name: the first item whose trimmed,
   * lower-cased name equals `key`, as an index into the snapshot.
   */
  function FindByKey(snapshot: Snapshot, key: string): (r: Option<nat>)
    ensures r.Some? ==>
              && r.value < |snapshot|
              && HasKey(snapshot[r.value], key)
              && forall j :: 0 <= j < r.value ==> !HasKey(snapshot[j], key)
    ensures r.None? <==> forall it :: it in snapshot ==> !HasKey(it, key)
  {
    FindFirst(snapshot, (it: Item) => HasKey(it, key), 0)
  }

  /** Whether some item's name already has the key of `name` (the duplicate test of adding an item). */
  predicate NameTaken(snapshot: Snapshot, name: string) {
    exists it :: it in snapshot && HasKey(it, NameKey(name))
  }

  /** Names are unique up to trimming and ASCII case, the snapshot's intended key. */
  ghost predicate UniqueKeys(snapshot: Snapshot) {
    forall i, j :: 0 <= i < j < |snapshot| ==> !HasKey(snapshot[j], NameKey(snapshot[i].name))
  }

  /** With unique keys, the lookup by key returns the only item carrying it. */
  lemma FindByKeyUnique(snapshot: Snapshot, i: nat)
    requires UniqueKeys(snapshot)
    requires i < |snapshot|
    ensures FindByKey(snapshot, NameKey(snapshot[i].name)) == Some(i)
  {
    assert snapshot[i] in snapshot;
  }
}

=== FILE: itemform.dfy ===
/**
 * The "Manage Inventory" form: the ordered checks of adding a new item and
 * of editing the selected one, and the payload each sends to the backend.
 *
 * The form's inputs are taken as already parsed: stock and reorder level
 * are integers, cost and price are minor units, the purchase date is the
 * date input's text.
 */
module ItemForm {
  import opened Results
  import opened Text
  import opened Inventory
  import opened Seqs

  /** The form's fields as the page reads them; `name` is the raw text before trimming. */
  datatype ItemInput = ItemInput(
    name: string,
    stock: int,
    cost: int,
    price: int,
    purchaseDate: string,
    reorderLevel: int)

  /** The payload of `addMedicine`. */
  datatype NewItem = NewItem(
    name: string,
    unitPrice: int,
    costPrice: int,
    stock: int,
    reorderLevel: int,
    purchaseDate: string)

  /** The payload of `editMedicine`: the same fields plus the backend row being edited. */
  datatype EditedItem = EditedItem(
    row: int,
    name: string,
    unitPrice: int,
    costPrice: int,
    stock: int,
    reorderLevel: int,
    purchaseDate: string)

  /** Why the form refused; one constructor per modal message. */
  datatype ItemError =
    | NoSelection
    | NameRequired
    | AlreadyExists
    | InvalidStock
    | InvalidCost
    | InvalidPrice
    | InvalidPurchaseDate
    | InvalidReorderLevel
    | StaleSelection

  /** The numeric and date fields a stored item must satisfy. */
  predicate WellFormedFields(stock: int, cost: int, price: int, purchaseDate: string, reorderLevel: int) {
    stock >= 0 && cost >= 0 && price > 0 && IsIsoDate(purchaseDate) && reorderLevel >= 0
  }

  /**
   * The field checks shared by both buttons, in the page's order: stock,
   * cost, price, purchase date, reorder level. The first failure wins.
   */
  function FieldError(input: ItemInput): (e: Option<ItemError>)
    ensures e.None? <==>
              WellFormedFields(input.stock, input.cost, input.price, input.purchaseDate, input.reorderLevel)
    ensures input.stock < 0 ==> e == Some(InvalidStock)
    ensures input.stock >= 0 && input.cost < 0 ==> e == Some(InvalidCost)
    ensures input.stock >= 0 && input.cost >= 0 && input.price <= 0 ==> e == Some(InvalidPrice)
    ensures input.stock >= 0 && input.cost >= 0 && input.price > 0 && !IsIsoDate(input.purchaseDate) ==>
              e == Some(InvalidPurchaseDate)
    ensures e == Some(InvalidReorderLevel) <==>
              input.stock >= 0 && input.cost >= 0 && input.price > 0 && IsIsoDate(input.purchaseDate)
              && input.reorderLevel < 0
  {
    if input.stock < 0 then Some(InvalidStock)
    else if input.cost < 0 then Some(InvalidCost)
    else if input.price <= 0 then Some(InvalidPrice)
    else if input.purchaseDate == "" || !IsIsoDate(input.purchaseDate) then Some(InvalidPurchaseDate)
    else if input.reorderLevel < 0 then Some(InvalidReorderLevel)
    else None
  }

  /**
   * "Add Item": the trimmed name must be non-empty and must not equal, up
   * to ASCII case, the trimmed name of any item in the snapshot; then the
   * field checks. The payload carries the trimmed name and the fields as read.
   */
  function AddItem(snapshot: Snapshot, input: ItemInput): (r: Result<NewItem, ItemError>)
    ensures r.Ok? <==>
              && Trim(input.name) != ""
              && !NameTaken(snapshot, input.name)
              && WellFormedFields(input.stock, input.cost, input.price, input.purchaseDate, input.reorderLevel)
    ensures Trim(input.name) == "" ==> r == Err(NameRequired)
    ensures Trim(input.name) != "" && NameTaken(snapshot, input.name) ==> r == Err(AlreadyExists)
    ensures Trim(input.name) != "" && !NameTaken(snapshot, input.name) && FieldError(input).Some? ==>
              r == Err(FieldError(input).value)
    ensures r.Ok? ==>
              && r.value.name == Trim(input.name)
              && r.value.unitPrice == input.price && r.value.costPrice == input.cost
              && r.value.stock == input.stock && r.value.reorderLevel == input.reorderLevel
              && r.value.purchaseDate == input.purchaseDate
  {
    var name := Trim(input.name);
    if name == "" then Err(NameRequired)
    else if exists it :: it in snapshot && HasKey(it, Lower(name)) then Err(AlreadyExists)
    else match FieldError(input)
      case Some(e) => Err(e)
      case None => Ok(NewItem(name, input.price, input.cost, input.stock, input.reorderLevel, input.purchaseDate))
  }

  /** The snapshot record the backend appends for an accepted new item at row `row`. */
  function Stored(item: NewItem, row: int): Item {
    Item(row, item.name, item.unitPrice, item.costPrice, item.stock, item.reorderLevel, item.purchaseDate)
  }

  /**
   * Adding keeps names unique: if the snapshot's names are unique up to
   * trimming and case, so are they once the accepted item is appended.
   */
  lemma AddItemKeepsNamesUnique(snapshot: Snapshot, input: ItemInput, row: int)
    requires UniqueKeys(snapshot)
    requires AddItem(snapshot, input).Ok?
    ensures UniqueKeys(snapshot + [Stored(AddItem(snapshot, input).value, row)])
  {
    var added := Stored(AddItem(snapshot, input).value, row);
    var s := snapshot + [added];
    NameKeyOfTrimmed(input.name);
    assert NameKey(added.name) == NameKey(input.name);
    forall i, j | 0 <= i < j < |s|
      ensures !HasKey(s[j], NameKey(s[i].name))
    {
      if j == |snapshot| {
        assert s[i] == snapshot[i];
        assert s[i] in snapshot;
        assert !HasKey(s[i], NameKey(input.name));
      } else {
        assert s[i] == snapshot[i] && s[j] == snapshot[j];
      }
    }
  }

  /** A name differing from a stored one only in case and surrounding blanks is refused as a duplicate. */
  lemma AddItemRefusesCaseVariant()
    ensures AddItem([Item(2, "Zinc", 250, 180, 40, 10, "2025-01-15")],
                    ItemInput(" ZINC ", 5, 180, 250, "2025-02-01", 10)) == Err(AlreadyExists)
  {
    var stored := Item(2, "Zinc", 250, 180, 40, 10, "2025-01-15");
    var snapshot := [stored];
    var input := ItemInput(" ZINC ", 5, 180, 250, "2025-02-01", 10);
    SampleKeys();
    assert stored in snapshot && HasKey(stored, NameKey(input.name));
    assert NameTaken(snapshot, input.name);
    assert Trim(input.name) != "";
  }

  lemma SampleKeys()
    ensures Trim(" ZINC ") == "ZINC" && NameKey("Zinc") == Lower("ZINC")
  {
    SampleTrim();
    ZincIsTrimmed();
    assert Lower("ZINC") == "zinc";
    assert Lower("Zinc") == "zinc";
  }

  lemma SampleTrim()
    ensures Trim(" ZINC ") == "ZINC"
  {
    var name := " ZINC ";
    assert name[1..] == "ZINC ";
    assert !IsWhitespace('Z') && IsWhitespace(' ');
    assert TrimStart(name) == "ZINC ";
    assert "ZINC "[..4] == "ZINC";
    assert TrimEnd("ZINC ") == "ZINC";
  }

  /**
   * "Update Item": a selection is required first; then the name and the
   * field checks as for adding, but no duplicate-name check. The payload's
   * row is the selected snapshot item's row. A selection that no longer
   * indexes the snapshot makes the page fail before any call.
   */
  function UpdateItem(snapshot: Snapshot, selected: Option<int>, input: ItemInput): (r: Result<EditedItem, ItemError>)
    ensures r.Ok? <==>
              && selected.Some? && 0 <= selected.value < |snapshot|
              && Trim(input.name) != ""
              && WellFormedFields(input.stock, input.cost, input.price, input.purchaseDate, input.reorderLevel)
    ensures selected.None? ==> r == Err(NoSelection)
    ensures selected.Some? && Trim(input.name) == "" ==> r == Err(NameRequired)
    ensures selected.Some? && Trim(input.name) != "" && FieldError(input).Some? ==>
              r == Err(FieldError(input).value)
    ensures (selected.Some? && !(0 <= selected.value < |snapshot|) && Trim(input.name) != ""
             && FieldError(input).None?) ==> r == Err(StaleSelection)
    ensures r.Ok? ==>
              && r.value.row == snapshot[selected.value].row
              && r.value.name == Trim(input.name)
              && r.value.unitPrice == input.price && r.value.costPrice == input.cost
              && r.value.stock == input.stock && r.value.reorderLevel == input.reorderLevel
              && r.value.purchaseDate == input.purchaseDate
  {
    if selected.None? then Err(NoSelection)
    else
      var name := Trim(input.name);
      if name == "" then Err(NameRequired)
      else match FieldError(input)
        case Some(e) => Err(e)
        case None =>
          var index := selected.value;
          if index < 0 || index >= |snapshot| then Err(StaleSelection)
          else
            var item := snapshot[index];
            Ok(EditedItem(item.row, name, input.price, input.cost, input.stock, input.reorderLevel, input.purchaseDate))
  }

  /**
   * `checkItemSelection`, run on every keystroke in the name field: the
   * first item whose trimmed name equals the trimmed text, compared
   * case-sensitively, or no selection when none does.
   */
  function SelectionFor(snapshot: Snapshot, typed: string): (r: Option<int>)
    ensures r.Some? ==>
              && 0 <= r.value < |snapshot| && Trim(snapshot[r.value].name) == Trim(typed)
              && forall j :: 0 <= j < r.value ==> Trim(snapshot[j].name) != Trim(typed)
    ensures r.None? <==> forall j :: 0 <= j < |snapshot| ==> Trim(snapshot[j].name) != Trim(typed)
  {
    match FindFirst(snapshot, (it: Item) => Trim(it.name) == Trim(typed), 0)
    case Some(i) => Some(i)
    case None => None
  }

  /**
   * The selection and name field the page can hold when "Update Item" is
   * pressed: either the selection typing produced, or a table click's
   * selection (`selectItem`) with the selected item's trimmed name written
   * into the field.
   */
  predicate PageSelection(snapshot: Snapshot, selected: Option<int>, name: string) {
    || selected == SelectionFor(snapshot, name)
    || (selected.Some? && 0 <= selected.value < |snapshot| && name == Trim(snapshot[selected.value].name))
  }

  /**
   * On the page an edit never changes an item's trimmed name: whichever way
   * the item was selected, an accepted edit sends the selected item's own
   * trimmed name, and typing a name no item has leaves nothing selected.
   */
  lemma EditKeepsTrimmedName(snapshot: Snapshot, selected: Option<int>, input: ItemInput)
    requires PageSelection(snapshot, selected, input.name)
    ensures var r := UpdateItem(snapshot, selected, input);
            && (r.Ok? ==> r.value.name == Trim(snapshot[selected.value].name))
            && (selected == SelectionFor(snapshot, input.name) && SelectionFor(snapshot, input.name).None? ==>
                  r == Err(NoSelection))
  {
    var r := UpdateItem(snapshot, selected, input);
    if r.Ok? && selected != SelectionFor(snapshot, input.name) {
      TrimIdempotent(snapshot[selected.value].name);
    }
  }

  /**
   * The two buttons apply the same name and field checks: with a valid
   * selection, editing refuses exactly as adding does except that a taken
   * name is allowed, and the two payloads agree field by field.
   */
  lemma {:induction false} AddAndUpdateAgree(snapshot: Snapshot, index: int, input: ItemInput)
    requires 0 <= index < |snapshot|
    ensures var add := AddItem(snapshot, input);
            var edit := UpdateItem(snapshot, Some(index), input);
            && (add.Err? && add.error != AlreadyExists ==> edit == add.PropagateFailure())
            && (add.Ok? ==> edit.Ok?)
            && (edit.Ok? ==> add.Ok? || add == Err(AlreadyExists))
            && (add.Ok? ==> edit.value == EditedItem(snapshot[index].row, add.value.name, add.value.unitPrice,
                                                     add.value.costPrice, add.value.stock,
                                                     add.value.reorderLevel, add.value.purchaseDate))
  {
  }

  /**
   * `updateItem` itself has no duplicate-name check: given another item's
   * name it accepts it. The page never passes such a pair
   * (`EditKeepsTrimmedName`).
   */
  lemma UpdateAcceptsTakenName()
    ensures UpdateItem([Item(2, "Zinc", 250, 180, 40, 10, "2025-01-15"),
                        Item(3, "Iron", 300, 200, 20, 5, "2025-01-20")],
                       Some(1),
                       ItemInput("Zinc", 20, 200, 300, "2025-01-20", 5)) ==
            Ok(EditedItem(3, "Zinc", 300, 200, 20, 5, "2025-01-20"))
  {
    var snapshot := [Item(2, "Zinc", 250, 180, 40, 10, "2025-01-15"),
                     Item(3, "Iron", 300, 200, 20, 5, "2025-01-20")];
    var input := ItemInput("Zinc", 20, 200, 300, "2025-01-20", 5);
    SampleFields(input);
    assert snapshot[1].row == 3;
  }

  lemma SampleFields(input: ItemInput)
    requires input == ItemInput("Zinc", 20, 200, 300, "2025-01-20", 5)
    ensures Trim(input.name) == "Zinc" && FieldError(input) == None
  {
    ZincIsTrimmed();
    SampleDateMatches();
  }

  lemma ZincIsTrimmed()
    ensures Trim("Zinc") == "Zinc"
  {
    assert !IsWhitespace('Z') && !IsWhitespace('c');
  }

  lemma SampleDateMatches()
    ensures IsIsoDate("2025-01-20")
  {
    IsoDateShape("2025-01-20");
  }
}

=== FILE: results.dfy ===
/** Failure-compatible result and option types shared by every validator of the model. */
module Results {

  /** Either a value or an error; usable with `:-`. */
  datatype Result<+T, +E> = Ok(value: T) | Err(error: E) {

    predicate IsFailure() {
      Err?
    }

    function PropagateFailure<U>(): Result<U, E>
      requires Err?
    {
      Err(error)
    }

    function Extract(): T
      requires Ok?
    {
      value
    }
  }

  datatype Option<+T> = None | Some(value: T)
}

=== FILE: saleform.dfy ===
/**
 * The "Record Sale" form: its rows, the quantity clamp, the price lookup,
 * the running summary and the validation that turns the form into a sale.
 *
 * Rows carry the number `n` of their `row-n` element. The page keeps a
 * counter `itemRows` and both the summary and the submission visit the
 * numbers `1..itemRows`, looking each row up by number; `VisitedRows` models
 * that visit, and the row-management functions show when it misses rows.
 */
module SaleForm {
  import opened Results
  import opened Text
  import opened Seqs
  import opened Inventory

  /**
   * One sale row as the page reads it: its number, the item select's value,
   * the quantity input, the unit-price input (minor units) and the stock
   * shown next to the quantity.
   */
  datatype Row = Row(id: int, item: string, quantity: int, unitPrice: int, stock: int)

  /** A freshly inserted row: nothing selected, quantity 1, no price, stock 0. */
  function BlankRow(id: int): Row {
    Row(id, "", 1, 0, 0)
  }

  // ---------------------------------------------------------------------------
  // Quantity clamp and price lookup

  /**
   * The quantity input after the clamp that runs on every keystroke. Both
   * tests look at the quantity as typed, and the lower bound is applied last.
   */
  function ValidateQuantity(quantity: int, stock: int): (q: int)
    ensures stock >= 1 ==> 1 <= q <= stock
    ensures 1 <= quantity <= stock ==> q == quantity
    ensures quantity < 1 ==> q == 1
    ensures 1 <= quantity && stock < quantity ==> q == stock
  {
    var afterUpper := if quantity > stock then stock else quantity;
    if quantity < 1 then 1 else afterUpper
  }

  /** With some stock, clamping a clamped quantity changes nothing. */
  lemma ValidateQuantityIdempotent(quantity: int, stock: int)
    requires stock >= 1
    ensures ValidateQuantity(ValidateQuantity(quantity, stock), stock) == ValidateQuantity(quantity, stock)
  {
  }

  /**
   * With a stock of 0 (a row with no item selected shows 0) the clamp is not
   * idempotent: a positive quantity drops to 0, and 0 goes back up to 1.
   */
  lemma ValidateQuantityWithoutStock()
    ensures ValidateQuantity(5, 0) == 0
    ensures ValidateQuantity(0, 0) == 1
    ensures ValidateQuantity(ValidateQuantity(5, 0), 0) != ValidateQuantity(5, 0)
  {
  }

  /**
   * The row after its item select changes: the trimmed selection is looked
   * up by key in the snapshot; a hit copies the item's price and stock and
   * lowers a quantity above that stock, a miss clears the selection, and an
   * empty selection resets price, stock and quantity.
   */
  function UpdatePrice(snapshot: Snapshot, row: Row): (r: Row)
    ensures r.id == row.id
    ensures Trim(row.item) == "" ==> r == row.(unitPrice := 0, stock := 0, quantity := 1)
    ensures Trim(row.item) != "" && FindByKey(snapshot, NameKey(row.item)).None? ==>
              r == BlankRow(row.id)
    ensures Trim(row.item) != "" && FindByKey(snapshot, NameKey(row.item)).Some? ==>
              var it := snapshot[FindByKey(snapshot, NameKey(row.item)).value];
              && NameKey(it.name) == NameKey(row.item)
              && r.item == row.item && r.unitPrice == it.price && r.stock == it.stock
              && r.quantity == (if row.quantity > it.stock then it.stock else row.quantity)
  {
    var value := Trim(row.item);
    if value == "" then
      row.(unitPrice := 0, stock := 0, quantity := 1)
    else
      match FindByKey(snapshot, Lower(value))
      case None => row.(item := "", unitPrice := 0, stock := 0, quantity := 1)
      case Some(i) =>
        var it := snapshot[i];
        row.(unitPrice := it.price, stock := it.stock,
             quantity := if row.quantity > it.stock then it.stock else row.quantity)
  }

  // ---------------------------------------------------------------------------
  // Sale validation

  datatype SaleLine = SaleLine(medicine: string, quantity: int, unitPrice: int)

  datatype Sale = Sale(date: string, items: seq<SaleLine>, paymentMethod: string, grandTotal: int)

  /** Why a submission was refused; each carries what the page's message names. */
  datatype SaleError =
    | InvalidDate
    | InvalidPaymentMethod
    | MissingItem(rowId: int)
    | InvalidQuantity(medicine: string, rowId: int)
    | ExceedsStock(medicine: string, stock: int)
    | InvalidUnitPrice(medicine: string, rowId: int)
    | NoItems

  function LineTotal(line: SaleLine): int {
    line.quantity * line.unitPrice
  }

  function SaleLineOf(row: Row): SaleLine {
    SaleLine(Trim(row.item), row.quantity, row.unitPrice)
  }

  /** The checks one row must pass, in the page's order; the first failure is reported. */
  function RowError(row: Row): (e: Option<SaleError>)
    ensures e.None? <==> Trim(row.item) != "" && 0 < row.quantity <= row.stock && row.unitPrice > 0
    ensures Trim(row.item) == "" ==> e == Some(MissingItem(row.id))
    ensures Trim(row.item) != "" && row.quantity <= 0 ==> e == Some(InvalidQuantity(Trim(row.item), row.id))
    ensures Trim(row.item) != "" && 0 < row.quantity && row.stock < row.quantity ==>
              e == Some(ExceedsStock(Trim(row.item), row.stock))
    ensures Trim(row.item) != "" && 0 < row.quantity <= row.stock && row.unitPrice <= 0 ==>
              e == Some(InvalidUnitPrice(Trim(row.item), row.id))
  {
    var name := Trim(row.item);
    if name == "" then Some(MissingItem(row.id))
    else if row.quantity <= 0 then Some(InvalidQuantity(name, row.id))
    else if row.quantity > row.stock then Some(ExceedsStock(name, row.stock))
    else if row.unitPrice <= 0 then Some(InvalidUnitPrice(name, row.id))
    else None
  }

  /** The lines of the sale: every row in order, or the error of the first row that fails. */
  function CollectLines(rows: seq<Row>): (r: Result<seq<SaleLine>, SaleError>)
    ensures r.Ok? <==> forall i :: 0 <= i < |rows| ==> RowError(rows[i]).None?
    ensures r.Ok? ==> |r.value| == |rows| && forall i :: 0 <= i < |rows| ==> r.value[i] == SaleLineOf(rows[i])
    ensures r.Err? ==> exists k :: 0 <= k < |rows| && RowError(rows[k]) == Some(r.error)
                                   && forall j :: 0 <= j < k ==> RowError(rows[j]).None?
  {
    if |rows| == 0 then Ok([])
    else
      match RowError(rows[0])
      case Some(e) => Err(e)
      case None =>
        var rest := CollectLines(rows[1..]);
        if rest.Err? then
          var k :| 0 <= k < |rows[1..]| && RowError(rows[1..][k]) == Some(rest.error)
                   && forall j :: 0 <= j < k ==> RowError(rows[1..][j]).None?;
          assert RowError(rows[k + 1]) == Some(rest.error);
          assert forall j :: 0 <= j < k + 1 ==> RowError(rows[j]).None? by {
            forall j | 0 <= j < k + 1
              ensures RowError(rows[j]).None?
            {
              if j > 0 {
                assert rows[j] == rows[1..][j - 1];
              }
            }
          }
          Err(rest.error)
        else
          assert forall i :: 0 <= i < |rows| ==> RowError(rows[i]).None? by {
            forall i | 0 <= i < |rows|
              ensures RowError(rows[i]).None?
            {
              if i > 0 {
                assert rows[i] == rows[1..][i - 1];
              }
            }
          }
          Ok([SaleLineOf(rows[0])] + rest.value)
  }

  predicate IsPaymentMethod(m: string) {
    m in ["Cash", "Momo"]
  }

  /**
   * Validation of the sale form over the rows the submission visits: the
   * date, then the payment method, then each row in order, then that at
   * least one line exists. On success the payload's grand total is the
   * `reduce` over its lines.
   */
  function ValidateSale(date: string, paymentMethod: string, rows: seq<Row>): (r: Result<Sale, SaleError>)
    ensures r.Ok? ==> r.value.date == date && r.value.paymentMethod == paymentMethod
    ensures !IsIsoDate(date) ==> r == Err(InvalidDate)
    ensures IsIsoDate(date) && !IsPaymentMethod(paymentMethod) ==> r == Err(InvalidPaymentMethod)
  {
    if !IsIsoDate(date) then Err(InvalidDate)
    else if !IsPaymentMethod(paymentMethod) then Err(InvalidPaymentMethod)
    else
      var items :- CollectLines(rows);
      if |items| == 0 then Err(NoItems)
      else Ok(Sale(date, items, paymentMethod, FoldSum(0, items, LineTotal)))
  }

  /** A sale is produced exactly when the date, the payment method and every visited row pass, and a row exists. */
  lemma ValidateSaleAccepts(date: string, paymentMethod: string, rows: seq<Row>)
    ensures ValidateSale(date, paymentMethod, rows).Ok? <==>
              && IsIsoDate(date) && IsPaymentMethod(paymentMethod) && |rows| > 0
              && forall i :: 0 <= i < |rows| ==> RowError(rows[i]).None?
  {
  }

  /**
   * The refusal is the first failing check: the date, then the payment
   * method, then the first failing row; "no items" only when no row is live.
   */
  lemma ValidateSaleFirstFailure(date: string, paymentMethod: string, rows: seq<Row>)
    ensures var r := ValidateSale(date, paymentMethod, rows);
            && (r == Err(NoItems) <==> IsIsoDate(date) && IsPaymentMethod(paymentMethod) && |rows| == 0)
            && (IsIsoDate(date) && IsPaymentMethod(paymentMethod) && r.Err? && r.error != NoItems ==>
                  exists k :: 0 <= k < |rows| && RowError(rows[k]) == Some(r.error)
                              && forall j :: 0 <= j < k ==> RowError(rows[j]).None?)
  {
    var r := ValidateSale(date, paymentMethod, rows);
    if IsIsoDate(date) && IsPaymentMethod(paymentMethod) && CollectLines(rows).Err? {
      assert |rows| > 0;
      assert r == Err(CollectLines(rows).error);
    }
  }

  /**
   * An accepted sale lists every visited row in order, each with a quantity
   * in `1..stock` and a positive price, and its grand total is the positive
   * sum of quantity times unit price.
   */
  lemma ValidateSalePayload(date: string, paymentMethod: string, rows: seq<Row>)
    requires ValidateSale(date, paymentMethod, rows).Ok?
    ensures var sale := ValidateSale(date, paymentMethod, rows).value;
            && |sale.items| == |rows|
            && (forall i :: 0 <= i < |rows| ==> sale.items[i] == SaleLineOf(rows[i]))
            && (forall i :: 0 <= i < |rows| ==>
                  0 < sale.items[i].quantity <= rows[i].stock && sale.items[i].unitPrice > 0)
            && sale.grandTotal == SumOf(sale.items, LineTotal)
            && sale.grandTotal > 0
  {
    var items := CollectLines(rows).value;
    FoldSumIsSum(0, items, LineTotal);
    forall i | 0 <= i < |items|
      ensures LineTotal(items[i]) > 0
    {
      assert RowError(rows[i]).None?;
      PositiveProduct(items[i].quantity, items[i].unitPrice);
    }
    SumOfPositive(items, LineTotal);
  }

  lemma PositiveProduct(a: int, b: int)
    requires a > 0 && b > 0
    ensures a * b > 0
  {
  }

  /** The grand total of an accepted sale does not depend on the order of its rows. */
  lemma GrandTotalOrderIndependent(date: string, paymentMethod: string, a: seq<Row>, b: seq<Row>)
    requires multiset(a) == multiset(b)
    requires ValidateSale(date, paymentMethod, a).Ok?
    ensures ValidateSale(date, paymentMethod, b).Ok?
    ensures ValidateSale(date, paymentMethod, a).value.grandTotal ==
            ValidateSale(date, paymentMethod, b).value.grandTotal
  {
    ValidateSaleAccepts(date, paymentMethod, a);
    PermutedRowsPass(a, b);
    ValidateSaleAccepts(date, paymentMethod, b);
    SaleTotalOfRows(date, paymentMethod, a);
    SaleTotalOfRows(date, paymentMethod, b);
    LineTotalsPermute(a, b);
  }

  lemma SaleTotalOfRows(date: string, paymentMethod: string, rows: seq<Row>)
    requires ValidateSale(date, paymentMethod, rows).Ok?
    ensures ValidateSale(date, paymentMethod, rows).value.grandTotal == SumOf(Map(rows, SaleLineOf), LineTotal)
  {
    ValidateSalePayload(date, paymentMethod, rows);
    assert ValidateSale(date, paymentMethod, rows).value.items == Map(rows, SaleLineOf);
  }

  lemma PermutedRowsPass(a: seq<Row>, b: seq<Row>)
    requires multiset(a) == multiset(b)
    requires forall i :: 0 <= i < |a| ==> RowError(a[i]).None?
    ensures |b| > 0 <==> |a| > 0
    ensures forall i :: 0 <= i < |b| ==> RowError(b[i]).None?
  {
    assert |b| == |multiset(b)| == |multiset(a)| == |a|;
    forall i | 0 <= i < |b|
      ensures RowError(b[i]).None?
    {
      assert b[i] in multiset(a);
      var j :| 0 <= j < |a| && a[j] == b[i];
    }
  }

  lemma LineTotalsPermute(a: seq<Row>, b: seq<Row>)
    requires multiset(a) == multiset(b)
    ensures SumOf(Map(a, SaleLineOf), LineTotal) == SumOf(Map(b, SaleLineOf), LineTotal)
  {
    SumOfMap(a, SaleLineOf, LineTotal, RowSubtotal);
    SumOfMap(b, SaleLineOf, LineTotal, RowSubtotal);
    SumOfPermutation(a, b, RowSubtotal);
  }

  /**
   * A row whose item was picked from the drop-down (an in-stock item with a
   * positive price and a non-blank name, in a snapshot with unique keys), and
   * whose quantity is at least 1, passes every row check once its price has
   * been looked up.
   */
  lemma ChosenOptionRowIsValid(snapshot: Snapshot, i: nat, row: Row)
    requires UniqueKeys(snapshot)
    requires i < |snapshot|
    requires snapshot[i].stock > 0 && snapshot[i].price > 0 && Trim(snapshot[i].name) != ""
    requires row.item == OptionFor(snapshot[i]).value
    requires row.quantity >= 1
    ensures RowError(UpdatePrice(snapshot, row)) == None
  {
    TrimIdempotent(snapshot[i].name);
    NameKeyOfTrimmed(snapshot[i].name);
    FindByKeyUnique(snapshot, i);
  }

  /**
   * Without unique names the lookup can pick another item: with an
   * out-of-stock "zinc" listed before an in-stock "Zinc" (the order the
   * form's `localeCompare` sort gives them), choosing the option "Zinc"
   * copies the first item's stock of 0, lowers the quantity to 0, and the
   * row is refused.
   */
  lemma ChosenOptionOnNameCollision()
    ensures var snapshot := [Item(1, "zinc", 500, 100, 0, 0, "2025-01-15"),
                             Item(2, "Zinc", 500, 100, 3, 0, "2025-01-15")];
            && OptionFor(snapshot[1]).value == "Zinc"
            && UpdatePrice(snapshot, Row(5, "Zinc", 1, 0, 0)) == Row(5, "Zinc", 0, 500, 0)
            && RowError(UpdatePrice(snapshot, Row(5, "Zinc", 1, 0, 0))) == Some(InvalidQuantity("Zinc", 5))
  {
    var snapshot := [Item(1, "zinc", 500, 100, 0, 0, "2025-01-15"),
                     Item(2, "Zinc", 500, 100, 3, 0, "2025-01-15")];
    ZincKeys();
    assert HasKey(snapshot[0], "zinc");
    assert FindByKey(snapshot, Lower("Zinc")) == Some(0);
  }

  lemma ZincKeys()
    ensures Trim("zinc") == "zinc" && Trim("Zinc") == "Zinc"
    ensures Lower("zinc") == "zinc" && Lower("Zinc") == "zinc"
  {
    assert !IsWhitespace('z') && !IsWhitespace('Z') && !IsWhitespace('c');
    assert Lower("zinc") == "zinc";
    assert Lower("Zinc") == "zinc";
  }

  // ---------------------------------------------------------------------------
  // Rows of the form and the running summary

  /**
   * The form as the page holds it: the counter `itemRows` and the live row
   * elements in document order.
   */
  datatype Form = Form(itemRows: int, rows: seq<Row>)

  function InitialForm(): Form {
    Form(1, [BlankRow(1)])
  }

  /** `getElementById('row-' + id)`: the first live row with that number. */
  function RowIndex(rows: seq<Row>, id: int): (r: Option<nat>)
    ensures r.Some? ==> r.value < |rows| && rows[r.value].id == id
                        && forall j :: 0 <= j < r.value ==> rows[j].id != id
    ensures r.None? ==> forall j :: 0 <= j < |rows| ==> rows[j].id != id
  {
    FindFirst(rows, (row: Row) => row.id == id, 0)
  }

  function LookupRow(rows: seq<Row>, id: int): seq<Row> {
    match RowIndex(rows, id)
    case None => []
    case Some(k) => [rows[k]]
  }

  /** The rows a `for (i = 1; i <= n; i++)` loop over row numbers finds, in visiting order. */
  function VisitUpTo(rows: seq<Row>, n: int): seq<Row>
    decreases n
  {
    if n < 1 then [] else VisitUpTo(rows, n - 1) + LookupRow(rows, n)
  }

  /** The rows the summary and the submission actually look at. */
  function VisitedRows(f: Form): seq<Row> {
    VisitUpTo(f.rows, f.itemRows)
  }

  /** Row numbers increase along the document and all lie in `1..itemRows`. */
  ghost predicate WellNumbered(f: Form) {
    && 0 <= f.itemRows
    && (forall j, k :: 0 <= j < k < |f.rows| ==> f.rows[j].id < f.rows[k].id)
    && (forall j :: 0 <= j < |f.rows| ==> 1 <= f.rows[j].id <= f.itemRows)
  }

  lemma {:induction false} VisitPrefix(rows: seq<Row>, m: int, k: nat)
    requires forall j, l :: 0 <= j < l < |rows| ==> rows[j].id < rows[l].id
    requires forall j :: 0 <= j < |rows| ==> 1 <= rows[j].id
    requires k <= |rows|
    requires forall j :: 0 <= j < k ==> rows[j].id <= m
    requires forall j :: k <= j < |rows| ==> rows[j].id > m
    ensures VisitUpTo(rows, m) == rows[..k]
    decreases m
  {
    if m < 1 {
    } else if k > 0 && rows[k - 1].id == m {
      assert RowIndex(rows, m) == Some(k - 1);
      VisitPrefix(rows, m - 1, k - 1);
      assert rows[..k] == rows[..k - 1] + [rows[k - 1]];
    } else {
      assert RowIndex(rows, m).None?;
      VisitPrefix(rows, m - 1, k);
    }
  }

  /** On a well-numbered form the visit finds every live row, in document order. */
  lemma VisitedIsAll(f: Form)
    requires WellNumbered(f)
    ensures VisitedRows(f) == f.rows
  {
    VisitPrefix(f.rows, f.itemRows, |f.rows|);
    assert f.rows[..|f.rows|] == f.rows;
  }

  /** "Add Another Item": bump the counter and append a blank row with the new number. */
  function AddItemRow(f: Form): (r: Form)
    ensures WellNumbered(f) ==> WellNumbered(r)
    ensures r.itemRows == f.itemRows + 1
    ensures r.rows == f.rows + [BlankRow(f.itemRows + 1)]
  {
    Form(f.itemRows + 1, f.rows + [BlankRow(f.itemRows + 1)])
  }

  /** "Remove", as the page does it: drop the row and decrement the counter. */
  function RemoveItemRow(f: Form, id: int): (r: Form)
    ensures f.itemRows <= 1 || RowIndex(f.rows, id).None? ==> r == f
    ensures f.itemRows > 1 && RowIndex(f.rows, id).Some? ==>
              var k := RowIndex(f.rows, id).value;
              && r.itemRows == f.itemRows - 1
              && f.rows[k].id == id
              && r.rows == f.rows[..k] + f.rows[k + 1..]
  {
    if f.itemRows <= 1 then f
    else
      match RowIndex(f.rows, id)
      case None => f
      case Some(k) => Form(f.itemRows - 1, f.rows[..k] + f.rows[k + 1..])
  }

  /**
   * "Remove" with the counter kept as the highest number handed out, and the
   * last remaining row protected by counting live rows instead.
   */
  function RemoveItemRowFixed(f: Form, id: int): (r: Form)
    ensures WellNumbered(f) ==> WellNumbered(r)
    ensures |f.rows| <= 1 || RowIndex(f.rows, id).None? ==> r == f
    ensures |f.rows| > 1 && RowIndex(f.rows, id).Some? ==>
              var k := RowIndex(f.rows, id).value;
              r.itemRows == f.itemRows && r.rows == f.rows[..k] + f.rows[k + 1..]
  {
    if |f.rows| <= 1 then f
    else
      match RowIndex(f.rows, id)
      case None => f
      case Some(k) =>
        var rows := f.rows[..k] + f.rows[k + 1..];
        assert forall j :: 0 <= j < |rows| ==> rows[j] == f.rows[if j < k then j else j + 1];
        Form(f.itemRows, rows)
  }

  datatype RowAction = AddRow | RemoveRow(id: int)

  function ApplyAsWritten(f: Form, actions: seq<RowAction>): Form
    decreases |actions|
  {
    if |actions| == 0 then f
    else
      var g := match actions[0]
        case AddRow => AddItemRow(f)
        case RemoveRow(id) => RemoveItemRow(f, id);
      ApplyAsWritten(g, actions[1..])
  }

  function ApplyFixed(f: Form, actions: seq<RowAction>): Form
    decreases |actions|
  {
    if |actions| == 0 then f
    else
      var g := match actions[0]
        case AddRow => AddItemRow(f)
        case RemoveRow(id) => RemoveItemRowFixed(f, id);
      ApplyFixed(g, actions[1..])
  }

  lemma {:induction false} ApplyFixedKeepsNumbering(f: Form, actions: seq<RowAction>)
    requires WellNumbered(f)
    ensures WellNumbered(ApplyFixed(f, actions))
    decreases |actions|
  {
    if |actions| > 0 {
      var g := match actions[0]
        case AddRow => AddItemRow(f)
        case RemoveRow(id) => RemoveItemRowFixed(f, id);
      ApplyFixedKeepsNumbering(g, actions[1..]);
    }
  }

  /**
   * The sale form as `displaySalesForm` draws it when the inventory is not
   * empty (with an empty inventory the page draws a notice and no form): a
   * single blank row 1, while the counter keeps whatever value it had (it is
   * reset to 1 only after a sale is recorded). Any counter of at least 1
   * gives a well-numbered form.
   */
  function DisplaySalesForm(itemRows: int): (r: Form)
    ensures r.itemRows == itemRows && r.rows == [BlankRow(1)]
    ensures itemRows >= 1 ==> WellNumbered(r)
  {
    Form(itemRows, [BlankRow(1)])
  }

  /**
   * With the corrected removal, from any well-numbered form (the first
   * display, or a re-display with a counter left over), after any sequence
   * of additions and removals the summary and the submission visit exactly
   * the live rows.
   */
  lemma FixedFormVisitsEveryRow(f: Form, actions: seq<RowAction>)
    requires WellNumbered(f)
    ensures VisitedRows(ApplyFixed(f, actions)) == ApplyFixed(f, actions).rows
  {
    ApplyFixedKeepsNumbering(f, actions);
    VisitedIsAll(ApplyFixed(f, actions));
  }

  /** The first display and every re-display of the form start well numbered. */
  lemma DisplayedFormsVisitEveryRow(itemRows: int, actions: seq<RowAction>)
    requires itemRows >= 1
    ensures InitialForm() == DisplaySalesForm(1)
    ensures VisitedRows(ApplyFixed(DisplaySalesForm(itemRows), actions)) ==
            ApplyFixed(DisplaySalesForm(itemRows), actions).rows
  {
    FixedFormVisitsEveryRow(DisplaySalesForm(itemRows), actions);
  }

  /**
   * As written: add two rows, remove the middle one. Rows 1 and 3 are live,
   * the counter is 2, and the visit finds row 1 only.
   */
  lemma RemoveRowDropsLastRow()
    ensures ApplyAsWritten(InitialForm(), [AddRow, AddRow, RemoveRow(2)]) ==
            Form(2, [BlankRow(1), BlankRow(3)])
    ensures VisitedRows(Form(2, [BlankRow(1), BlankRow(3)])) == [BlankRow(1)]
  {
    var f2 := Form(3, [BlankRow(1), BlankRow(2), BlankRow(3)]);
    assert ApplyAsWritten(InitialForm(), [AddRow, AddRow, RemoveRow(2)]) ==
           ApplyAsWritten(f2, [RemoveRow(2)]);
    assert RowIndex(f2.rows, 2) == Some(1);
    assert f2.rows[..1] + f2.rows[2..] == [BlankRow(1), BlankRow(3)];
    var rows := [BlankRow(1), BlankRow(3)];
    assert RowIndex(rows, 1) == Some(0);
    assert RowIndex(rows, 2).None?;
  }

  /**
   * The consequence for a sale: with rows 1 and 3 filled in after that
   * removal, the submission visits row 1 alone, so the sale it sends carries
   * one line and a grand total of 500 where the two live rows are worth 800.
   */
  lemma RemoveRowLosesSaleLine()
    ensures VisitedRows(Form(2, [SampleRow1(), SampleRow3()])) == [SampleRow1()]
    ensures SubmitSale(SampleDate, "Cash", Form(2, [SampleRow1(), SampleRow3()])) ==
            Ok(Sale(SampleDate, [SaleLine("Paracetamol", 2, 250)], "Cash", 500))
    ensures ValidateSale(SampleDate, "Cash", [SampleRow1(), SampleRow3()]) ==
            Ok(Sale(SampleDate, [SaleLine("Paracetamol", 2, 250), SaleLine("Ibuprofen", 1, 300)], "Cash", 800))
  {
    SampleVisit();
    SampleSales();
  }

  const SampleDate: string := "2025-05-01"

  lemma SampleVisit()
    ensures VisitedRows(Form(2, [SampleRow1(), SampleRow3()])) == [SampleRow1()]
  {
    var r1, r3 := SampleRow1(), SampleRow3();
    assert RowIndex([r1, r3], 1) == Some(0);
    assert RowIndex([r1, r3], 2).None?;
    assert VisitUpTo([r1, r3], 0) == [];
    assert VisitUpTo([r1, r3], 1) == [r1];
  }

  lemma SampleSales()
    ensures ValidateSale(SampleDate, "Cash", [SampleRow1()]) ==
            Ok(Sale(SampleDate, [SaleLine("Paracetamol", 2, 250)], "Cash", 500))
    ensures ValidateSale(SampleDate, "Cash", [SampleRow1(), SampleRow3()]) ==
            Ok(Sale(SampleDate, [SaleLine("Paracetamol", 2, 250), SaleLine("Ibuprofen", 1, 300)], "Cash", 800))
  {
    SampleDateValid();
    SampleCollect();
    SampleTotals();
    assert IsPaymentMethod("Cash");
  }

  lemma SampleTotals()
    ensures FoldSum(0, [SaleLine("Paracetamol", 2, 250)], LineTotal) == 500
    ensures FoldSum(0, [SaleLine("Paracetamol", 2, 250), SaleLine("Ibuprofen", 1, 300)], LineTotal) == 800
  {
    var l1, l3 := SaleLine("Paracetamol", 2, 250), SaleLine("Ibuprofen", 1, 300);
    assert LineTotal(l1) == 500 && LineTotal(l3) == 300;
    assert [l1][1..] == [];
    assert FoldSum(500, [], LineTotal) == 500;
    assert [l1, l3][1..] == [l3];
    assert [l3][1..] == [];
    assert FoldSum(800, [], LineTotal) == 800;
    assert FoldSum(500, [l3], LineTotal) == 800;
  }

  lemma SampleCollect()
    ensures CollectLines([SampleRow1()]) == Ok([SaleLine("Paracetamol", 2, 250)])
    ensures CollectLines([SampleRow1(), SampleRow3()]) ==
            Ok([SaleLine("Paracetamol", 2, 250), SaleLine("Ibuprofen", 1, 300)])
  {
    SampleRowsPass();
    var r1, r3 := SampleRow1(), SampleRow3();
    var l1, l3 := SaleLine("Paracetamol", 2, 250), SaleLine("Ibuprofen", 1, 300);
    assert SaleLineOf(r1) == l1;
    assert SaleLineOf(r3) == l3;
    var empty: seq<Row> := [];
    assert CollectLines(empty) == Ok([]);
    CollectLinesCons(r3, empty);
    assert [r3] + empty == [r3];
    assert [SaleLineOf(r3)] + CollectLines(empty).value == [l3];
    assert CollectLines([r3]) == Ok([l3]);
    CollectLinesCons(r1, empty);
    assert [r1] + empty == [r1];
    assert [SaleLineOf(r1)] + CollectLines(empty).value == [l1];
    assert CollectLines([r1]) == Ok([l1]);
    CollectLinesCons(r1, [r3]);
    assert [r1] + [r3] == [r1, r3];
    assert [l1] + [l3] == [l1, l3];
  }

  lemma CollectLinesCons(row: Row, rest: seq<Row>)
    requires RowError(row).None? && CollectLines(rest).Ok?
    ensures CollectLines([row] + rest) == Ok([SaleLineOf(row)] + CollectLines(rest).value)
  {
    assert ([row] + rest)[0] == row;
    assert ([row] + rest)[1..] == rest;
  }

  lemma SampleDateValid()
    ensures IsIsoDate(SampleDate)
  {
    IsoDateShape(SampleDate);
  }

  function SampleRow1(): Row {
    Row(1, "Paracetamol", 2, 250, 100)
  }

  function SampleRow3(): Row {
    Row(3, "Ibuprofen", 1, 300, 50)
  }

  lemma SampleRowsPass()
    ensures Trim(SampleRow1().item) == "Paracetamol" && RowError(SampleRow1()).None?
    ensures Trim(SampleRow3().item) == "Ibuprofen" && RowError(SampleRow3()).None?
  {
    assert !IsWhitespace('P') && !IsWhitespace('l');
    assert !IsWhitespace('I') && !IsWhitespace('n');
  }

  /** One line of the purchase summary. */
  datatype SummaryLine = SummaryLine(name: string, qty: int, price: int, subtotal: int)

  predicate HasItem(row: Row) {
    Trim(row.item) != ""
  }

  function RowSubtotal(row: Row): int {
    row.quantity * row.unitPrice
  }

  function SummaryLineOf(row: Row): SummaryLine {
    SummaryLine(Trim(row.item), row.quantity, row.unitPrice, RowSubtotal(row))
  }

  /**
   * The purchase summary: visit row numbers `1..itemRows`, keep the live
   * rows with a selected item, list each with its subtotal and add the
   * subtotals. Quantities and prices are not checked here.
   */
  method UpdateSummary(f: Form) returns (lines: seq<SummaryLine>, total: int)
    ensures lines == Map(Filter(VisitedRows(f), HasItem), SummaryLineOf)
    ensures total == SumOf(Filter(VisitedRows(f), HasItem), RowSubtotal)
    ensures WellNumbered(f) ==> total == SumOf(Filter(f.rows, HasItem), RowSubtotal)
  {
    lines := [];
    total := 0;
    var i := 1;
    while i <= f.itemRows
      invariant i <= f.itemRows + 1 || (f.itemRows < 1 && i == 1)
      invariant lines == Map(Filter(VisitUpTo(f.rows, i - 1), HasItem), SummaryLineOf)
      invariant total == SumOf(Filter(VisitUpTo(f.rows, i - 1), HasItem), RowSubtotal)
      decreases f.itemRows - i
    {
      var found := LookupRow(f.rows, i);
      SummaryStep(f.rows, i);
      if |found| == 1 && HasItem(found[0]) {
        lines := lines + [SummaryLineOf(found[0])];
        total := total + RowSubtotal(found[0]);
      }
      i := i + 1;
    }
    VisitedIsAllWhenWellNumbered(f);
  }

  /** What visiting row number `i` adds to the summary's lines and total. */
  lemma SummaryStep(rows: seq<Row>, i: int)
    requires i >= 1
    ensures var before := Filter(VisitUpTo(rows, i - 1), HasItem);
            var after := Filter(VisitUpTo(rows, i), HasItem);
            var found := LookupRow(rows, i);
            if |found| == 1 && HasItem(found[0]) then
              && after == before + [found[0]]
              && Map(after, SummaryLineOf) == Map(before, SummaryLineOf) + [SummaryLineOf(found[0])]
              && SumOf(after, RowSubtotal) == SumOf(before, RowSubtotal) + RowSubtotal(found[0])
            else
              after == before
  {
    var prev := VisitUpTo(rows, i - 1);
    var found := LookupRow(rows, i);
    FilterAppend(prev, found, HasItem);
    var before := Filter(prev, HasItem);
    if |found| == 1 && HasItem(found[0]) {
      assert Filter(found, HasItem) == [found[0]];
      MapAppend(before, [found[0]], SummaryLineOf);
      SumOfAppend(before, [found[0]], RowSubtotal);
    } else {
      assert Filter(found, HasItem) == [];
      assert before + [] == before;
    }
  }

  /** The summary total of a set of rows does not depend on their order. */
  lemma SummaryTotalOrderIndependent(a: seq<Row>, b: seq<Row>)
    requires multiset(a) == multiset(b)
    ensures SumOf(Filter(a, HasItem), RowSubtotal) == SumOf(Filter(b, HasItem), RowSubtotal)
  {
    FilterPermutation(a, b, HasItem);
    SumOfPermutation(Filter(a, HasItem), Filter(b, HasItem), RowSubtotal);
  }

  lemma VisitedIsAllWhenWellNumbered(f: Form)
    ensures WellNumbered(f) ==> VisitedRows(f) == f.rows
  {
    if WellNumbered(f) {
      VisitedIsAll(f);
    }
  }

  /**
   * "Submit Sale" on the form: the validation run over the rows the
   * submission loop visits. On a well-numbered form those are all live rows.
   */
  function SubmitSale(date: string, paymentMethod: string, f: Form): (r: Result<Sale, SaleError>)
    ensures WellNumbered(f) ==> r == ValidateSale(date, paymentMethod, f.rows)
    ensures r.Ok? ==> |r.value.items| == |VisitedRows(f)|
  {
    VisitedIsAllWhenWellNumbered(f);
    ValidateSale(date, paymentMethod, VisitedRows(f))
  }
}

=== FILE: seqs.dfy ===
/**
 * Generic sequence operations behind `Array.prototype.filter`, `map` and
 * `reduce`, with the facts the inventory and sale rules rely on.
 */
module Seqs {
  import opened Results

  /** `a` is obtained from `b` by deleting elements, keeping the rest in order. */
  ghost predicate IsSubsequence<T>(a: seq<T>, b: seq<T>)
    decreases |b|
  {
    if |a| == 0 then true
    else if |b| == 0 then false
    else (a[0] == b[0] && IsSubsequence(a[1..], b[1..])) || IsSubsequence(a, b[1..])
  }

  /** `s.filter(p)`: the elements satisfying `p`, in order. */
  function Filter<T>(s: seq<T>, p: T -> bool): (r: seq<T>)
    ensures |r| <= |s|
    ensures forall i :: 0 <= i < |r| ==> p(r[i])
  {
    if |s| == 0 then []
    else
      var rest := Filter(s[1..], p);
      if p(s[0]) then [s[0]] + rest else rest
  }

  /** The filtered sequence holds exactly the elements that satisfy `p`, each as often as in `s`. */
  lemma {:induction false} FilterMultiset<T(!new)>(s: seq<T>, p: T -> bool)
    ensures forall x :: multiset(Filter(s, p))[x] == if p(x) then multiset(s)[x] else 0
  {
    if |s| > 0 {
      FilterMultiset(s[1..], p);
      assert s == [s[0]] + s[1..];
      assert multiset(s) == multiset{s[0]} + multiset(s[1..]);
    }
  }

  lemma FilterMembers<T(!new)>(s: seq<T>, p: T -> bool)
    ensures forall x :: x in Filter(s, p) <==> x in s && p(x)
  {
    FilterMultiset(s, p);
    forall x
      ensures x in Filter(s, p) <==> x in s && p(x)
    {
      assert x in Filter(s, p) <==> multiset(Filter(s, p))[x] > 0;
      assert x in s <==> multiset(s)[x] > 0;
    }
  }

  /** Filtering keeps the survivors in their original order. */
  lemma {:induction false} FilterIsSubsequence<T>(s: seq<T>, p: T -> bool)
    ensures IsSubsequence(Filter(s, p), s)
  {
    if |s| > 0 {
      FilterIsSubsequence(s[1..], p);
      var rest := Filter(s[1..], p);
      if p(s[0]) {
        assert Filter(s, p) == [s[0]] + rest;
        assert ([s[0]] + rest)[1..] == rest;
      } else {
        assert Filter(s, p) == rest;
        if |rest| > 0 {
          assert IsSubsequence(rest, s[1..]);
        }
      }
    }
  }

  /** Filtering a concatenation filters each part. */
  lemma {:induction false} FilterAppend<T>(a: seq<T>, b: seq<T>, p: T -> bool)
    ensures Filter(a + b, p) == Filter(a, p) + Filter(b, p)
  {
    if |a| > 0 {
      assert (a + b)[1..] == a[1..] + b;
      FilterAppend(a[1..], b, p);
    } else {
      assert a + b == b;
    }
  }

  /** Two sequences with the same elements filter to sequences with the same elements. */
  lemma FilterPermutation<T(!new)>(a: seq<T>, b: seq<T>, p: T -> bool)
    requires multiset(a) == multiset(b)
    ensures multiset(Filter(a, p)) == multiset(Filter(b, p))
  {
    FilterMultiset(a, p);
    FilterMultiset(b, p);
    assert forall x :: multiset(Filter(a, p))[x] == multiset(Filter(b, p))[x];
  }

  /** `s.map(f)`. */
  function Map<T, U>(s: seq<T>, f: T -> U): (r: seq<U>)
    ensures |r| == |s|
    ensures forall i :: 0 <= i < |s| ==> r[i] == f(s[i])
  {
    seq(|s|, i requires 0 <= i < |s| => f(s[i]))
  }

  /** The mathematical sum of `f` over `s`, the reference for every total. */
  function SumOf<T>(s: seq<T>, f: T -> int): int
  {
    if |s| == 0 then 0 else f(s[0]) + SumOf(s[1..], f)
  }

  /** `s.reduce((acc, x) => acc + f(x), acc)`: a left-to-right running total. */
  function FoldSum<T>(acc: int, s: seq<T>, f: T -> int): int
    decreases |s|
  {
    if |s| == 0 then acc else FoldSum(acc + f(s[0]), s[1..], f)
  }

  /** The running total started at `acc` ends at `acc` plus the sum. */
  lemma {:induction false} FoldSumIsSum<T>(acc: int, s: seq<T>, f: T -> int)
    ensures FoldSum(acc, s, f) == acc + SumOf(s, f)
    decreases |s|
  {
    if |s| > 0 {
      FoldSumIsSum(acc + f(s[0]), s[1..], f);
    }
  }

  lemma {:induction false} SumOfAppend<T>(a: seq<T>, b: seq<T>, f: T -> int)
    ensures SumOf(a + b, f) == SumOf(a, f) + SumOf(b, f)
  {
    if |a| == 0 {
      assert a + b == b;
    } else {
      assert (a + b)[1..] == a[1..] + b;
      SumOfAppend(a[1..], b, f);
    }
  }

  /** A sum does not depend on the order of its terms. */
  lemma {:induction false} SumOfPermutation<T>(a: seq<T>, b: seq<T>, f: T -> int)
    requires multiset(a) == multiset(b)
    ensures SumOf(a, f) == SumOf(b, f)
    decreases |a|
  {
    if |a| == 0 {
      assert |b| == |multiset(b)| == 0;
    } else {
      var x := a[0];
      assert a == [x] + a[1..];
      assert x in multiset(b);
      var k :| 0 <= k < |b| && b[k] == x;
      var rest := b[..k] + b[k + 1..];
      assert b == b[..k] + [x] + b[k + 1..];
      assert multiset(b) == multiset(b[..k]) + multiset{x} + multiset(b[k + 1..]);
      assert multiset(rest) == multiset(b[..k]) + multiset(b[k + 1..]);
      assert multiset(a) == multiset{x} + multiset(a[1..]);
      assert multiset(a[1..]) == multiset(a) - multiset{x};
      assert multiset(rest) == multiset(b) - multiset{x};
      SumOfPermutation(a[1..], rest, f);
      SumOfAppend(b[..k] + [x], b[k + 1..], f);
      SumOfAppend(b[..k], [x], f);
      SumOfAppend(b[..k], b[k + 1..], f);
      assert SumOf([x], f) == f(x);
    }
  }

  lemma {:induction false} SumOfNonNegative<T>(s: seq<T>, f: T -> int)
    requires forall i :: 0 <= i < |s| ==> f(s[i]) >= 0
    ensures SumOf(s, f) >= 0
  {
    if |s| > 0 {
      SumOfNonNegative(s[1..], f);
    }
  }

  lemma {:induction false} SumOfPositive<T>(s: seq<T>, f: T -> int)
    requires |s| > 0
    requires forall i :: 0 <= i < |s| ==> f(s[i]) > 0
    ensures SumOf(s, f) > 0
  {
    SumOfNonNegative(s[1..], f);
  }

  /** `s.findIndex(p)` from position `from`: the first index at or after `from` whose element satisfies `p`. */
  function FindFirst<T>(s: seq<T>, p: T -> bool, from: nat): (r: Option<nat>)
    requires from <= |s|
    ensures r.Some? ==>
              && from <= r.value < |s| && p(s[r.value])
              && forall j :: from <= j < r.value ==> !p(s[j])
    ensures r.None? ==> forall j :: from <= j < |s| ==> !p(s[j])
    decreases |s| - from
  {
    if from == |s| then None
    else if p(s[from]) then Some(from)
    else FindFirst(s, p, from + 1)
  }

  /** Mapping keeps a subsequence a subsequence. */
  lemma {:induction false} MapSubsequence<T, U>(a: seq<T>, b: seq<T>, f: T -> U)
    requires IsSubsequence(a, b)
    ensures IsSubsequence(Map(a, f), Map(b, f))
    decreases |b|
  {
    if |a| > 0 && |b| > 0 {
      assert Map(b, f)[1..] == Map(b[1..], f);
      if a[0] == b[0] && IsSubsequence(a[1..], b[1..]) {
        MapSubsequence(a[1..], b[1..], f);
        assert Map(a, f)[1..] == Map(a[1..], f);
      } else {
        MapSubsequence(a, b[1..], f);
      }
    }
  }

  lemma MapAppend<T, U>(a: seq<T>, b: seq<T>, f: T -> U)
    ensures Map(a + b, f) == Map(a, f) + Map(b, f)
  {
  }

  /** Summing `f` over mapped elements is summing the composition `h` over the originals. */
  lemma {:induction false} SumOfMap<T, U>(s: seq<T>, g: T -> U, f: U -> int, h: T -> int)
    requires forall x :: h(x) == f(g(x))
    ensures SumOf(Map(s, g), f) == SumOf(s, h)
  {
    if |s| > 0 {
      assert Map(s, g)[1..] == Map(s[1..], g);
      SumOfMap(s[1..], g, f, h);
    }
  }
}

=== FILE: session.dfy ===
/**
 * The login page's session: the `role` and `sessionId` it keeps, the
 * normalisation of every backend reply, and the login and logout
 * transitions.
 *
 * The network call is a parameter: `Delivery` is what the POST produced,
 * either a failure to fetch or parse, or a parsed JSON reply.
 */
module Session {
  import opened Results
  import opened Text

  /**
   * A parsed backend reply. The `error` field is a string; the empty string
   * stands for an absent (or otherwise falsy) field.
   */
  datatype Response<D> = Response(error: string, data: D)

  /** What the POST produced: a thrown fetch or parse error with its message, or a reply. */
  datatype Delivery<D> = TransportFailure(message: string) | Delivered(response: Response<D>)

  /**
   * `callGasFunction`: a reply whose `error` is set becomes an error with
   * that message; otherwise the reply's `data` is returned. A transport
   * failure is re-thrown unchanged.
   */
  function CallGasFunction<D>(delivery: Delivery<D>): (r: Result<D, string>)
    ensures r.Ok? <==> delivery.Delivered? && delivery.response.error == ""
    ensures r.Ok? ==> r.value == delivery.response.data
    ensures delivery.Delivered? && delivery.response.error != "" ==> r == Err(delivery.response.error)
    ensures delivery.TransportFailure? ==> r == Err(delivery.message)
  {
    match delivery
    case TransportFailure(message) => Err(message)
    case Delivered(response) =>
      if response.error != "" then Err(response.error) else Ok(response.data)
  }

  /** The `data` of a `validateUser` reply. */
  datatype LoginReply = LoginReply(success: bool, role: string, sessionId: string, message: string)

  datatype Screen = LoginScreen | MainScreen

  /**
   * The page's state: the session pair, which screen is shown, whether the
   * login button is enabled, and the text in the two login inputs.
   */
  datatype AppState = AppState(
    role: string,
    sessionId: string,
    screen: Screen,
    loginEnabled: bool,
    username: string,
    password: string)

  /** The page as first loaded: no session, the login form, the button enabled, empty inputs. */
  function InitialState(): AppState {
    AppState("", "", LoginScreen, true, "", "")
  }

  /** What the user is told: a transient toast, or a modal with a title. */
  datatype Notice = Toast(message: string) | Modal(title: string, message: string)

  /** The synchronous part of `login`: refused before any call, or a call started with these credentials. */
  datatype Begin =
    | Refused(notice: Notice)
    | Started(inFlight: AppState, username: string, password: string)

  /**
   * The part of `login` before the call: a blank (after trimming) username
   * or an empty password is refused with a toast; otherwise the button is
   * disabled and the trimmed username and the password are sent.
   */
  function BeginLogin(s: AppState): (b: Begin)
    ensures b.Refused? <==> Trim(s.username) == "" || s.password == ""
    ensures b.Started? ==>
              && b.inFlight == s.(loginEnabled := false)
              && b.username == Trim(s.username) && b.username != ""
              && b.password == s.password
  {
    var username := Trim(s.username);
    if username == "" || s.password == "" then Refused(Toast("Please enter username and password"))
    else Started(s.(loginEnabled := false), username, s.password)
  }

  /** `a || b` on strings: `a` unless it is empty. */
  function OrElse(a: string, b: string): (r: string)
    ensures a != "" ==> r == a
    ensures a == "" ==> r == b
  {
    if a != "" then a else b
  }

  /**
   * The part of `login` after the call settles. A successful reply installs
   * its role and session id and shows the main screen; an unsuccessful reply
   * or a thrown error leaves the session as it was and shows a modal. The
   * button is enabled again on every path.
   */
  function FinishLogin(inFlight: AppState, outcome: Result<LoginReply, string>): (r: (AppState, Notice))
    ensures r.0.loginEnabled
    ensures r.0.username == inFlight.username && r.0.password == inFlight.password
    ensures outcome.Ok? && outcome.value.success ==>
              && r.0.role == outcome.value.role && r.0.sessionId == outcome.value.sessionId
              && r.0.screen == MainScreen
              && r.1 == Toast("Login successful")
    ensures !(outcome.Ok? && outcome.value.success) ==>
              && r.0 == inFlight.(loginEnabled := true)
              && r.1.Modal? && r.1.title == "Error" && r.1.message != ""
  {
    match outcome
    case Ok(reply) =>
      if reply.success then
        (inFlight.(role := reply.role, sessionId := reply.sessionId, screen := MainScreen, loginEnabled := true),
         Toast("Login successful"))
      else
        (inFlight.(loginEnabled := true), Modal("Error", OrElse(reply.message, "Login failed")))
    case Err(message) =>
      (inFlight.(loginEnabled := true), Modal("Error", OrElse(message, "Failed to connect to server")))
  }

  /**
   * One press of the login button from state `s`, with `delivery` standing
   * for what the backend call produced; the result is the state once the
   * call has settled and what the user was told.
   */
  function Login(s: AppState, delivery: Delivery<LoginReply>): (r: (AppState, Notice))
    ensures Trim(s.username) == "" || s.password == "" ==>
              r == (s, Toast("Please enter username and password"))
    ensures Trim(s.username) != "" && s.password != "" ==> r.0.loginEnabled
  {
    match BeginLogin(s)
    case Refused(notice) => (s, notice)
    case Started(inFlight, _, _) => FinishLogin(inFlight, CallGasFunction(delivery))
  }

  /** Whether the backend accepted the credentials: a reply without `error` whose `success` is set. */
  predicate Accepted(delivery: Delivery<LoginReply>) {
    delivery.Delivered? && delivery.response.error == "" && delivery.response.data.success
  }

  /**
   * A started login ends in the main screen with the backend's role and
   * session id exactly when the backend accepted; otherwise role, session
   * id and screen are those before the press.
   */
  lemma LoginOutcome(s: AppState, delivery: Delivery<LoginReply>)
    requires Trim(s.username) != "" && s.password != ""
    ensures var r := Login(s, delivery);
            && (Accepted(delivery) ==>
                  && r.0.role == delivery.response.data.role
                  && r.0.sessionId == delivery.response.data.sessionId
                  && r.0.screen == MainScreen
                  && r.1 == Toast("Login successful"))
            && (!Accepted(delivery) ==>
                  && r.0 == s.(loginEnabled := true)
                  && r.1.Modal?)
  {
  }

  /**
   * The modal a failed login shows: the backend's `error` if it set one,
   * else the reply's own message, else "Login failed"; a transport failure
   * shows its message or "Failed to connect to server".
   */
  lemma LoginFailureMessage(s: AppState, delivery: Delivery<LoginReply>)
    requires Trim(s.username) != "" && s.password != ""
    requires !Accepted(delivery)
    ensures var notice := Login(s, delivery).1;
            && (delivery.TransportFailure? ==>
                  notice == Modal("Error", if delivery.message != "" then delivery.message
                                           else "Failed to connect to server"))
            && (delivery.Delivered? && delivery.response.error != "" ==>
                  notice == Modal("Error", delivery.response.error))
            && (delivery.Delivered? && delivery.response.error == "" ==>
                  notice == Modal("Error", if delivery.response.data.message != "" then delivery.response.data.message
                                           else "Login failed"))
  {
  }

  /** `logout`: the session pair is cleared, the login form is shown and its inputs emptied. */
  function Logout(s: AppState): (r: (AppState, Notice))
    ensures r.0.role == "" && r.0.sessionId == ""
    ensures r.0.screen == LoginScreen && r.0.username == "" && r.0.password == ""
    ensures r.0.loginEnabled == s.loginEnabled
    ensures r.1 == Toast("Logged out successfully")
  {
    (s.(role := "", sessionId := "", screen := LoginScreen, username := "", password := ""),
     Toast("Logged out successfully"))
  }

  /** Logging out twice leaves the page as logging out once. */
  lemma LogoutIdempotent(s: AppState)
    ensures Logout(Logout(s).0) == Logout(s)
  {
  }

  /**
   * Logging out returns the page to its first-loaded state, whatever session
   * was installed, as long as the button is enabled (it always is once a
   * login has settled).
   */
  lemma LogoutAfterLogin(s: AppState, delivery: Delivery<LoginReply>)
    requires s.loginEnabled
    ensures Logout(Login(s, delivery).0).0 == InitialState()
  {
  }
}

=== FILE: text.dfy ===
/**
 * The string operations the page applies to names, search terms and dates:
 * `String.prototype.trim`, `toLowerCase`, `includes`, and the date pattern
 * `^\d{4}-\d{2}-\d{2}$`.
 */
module Text {

  /** ECMAScript WhiteSpace and LineTerminator code points, the set `trim` removes. */
  predicate IsWhitespace(c: char) {
    || c == ' ' || c == '\t' || c == '\n' || c == '\r'
    || c == '\U{000B}' || c == '\U{000C}' || c == '\U{00A0}' || c == '\U{1680}'
    || ('\U{2000}' <= c <= '\U{200A}')
    || c == '\U{2028}' || c == '\U{2029}' || c == '\U{202F}' || c == '\U{205F}'
    || c == '\U{3000}' || c == '\U{FEFF}'
  }

  /** Drops leading whitespace. */
  function TrimStart(s: string): (r: string)
    ensures |r| <= |s|
  {
    if |s| > 0 && IsWhitespace(s[0]) then TrimStart(s[1..]) else s
  }

  /** Drops trailing whitespace. */
  function TrimEnd(s: string): (r: string)
    ensures |r| <= |s|
  {
    if |s| > 0 && IsWhitespace(s[|s| - 1]) then TrimEnd(s[..|s| - 1]) else s
  }

  /** `s.trim()`. */
  function Trim(s: string): (r: string)
    ensures |r| <= |s|
  {
    TrimEnd(TrimStart(s))
  }

  /** `TrimStart` removes a prefix made of whitespace and stops at the first other character. */
  lemma {:induction false} TrimStartSpec(s: string)
    ensures var r := TrimStart(s);
            && r == s[|s| - |r|..]
            && (forall i :: 0 <= i < |s| - |r| ==> IsWhitespace(s[i]))
            && (|r| > 0 ==> !IsWhitespace(r[0]))
    decreases |s|
  {
    if |s| > 0 && IsWhitespace(s[0]) {
      TrimStartSpec(s[1..]);
      var r := TrimStart(s);
      assert s[1..][|s| - 1 - |r|..] == s[|s| - |r|..];
      forall i | 0 <= i < |s| - |r|
        ensures IsWhitespace(s[i])
      {
        if i > 0 {
          assert s[i] == s[1..][i - 1];
        }
      }
    }
  }

  /** `TrimEnd` removes a suffix made of whitespace and stops at the last other character. */
  lemma {:induction false} TrimEndSpec(s: string)
    ensures var r := TrimEnd(s);
            && r == s[..|r|]
            && (forall i :: |r| <= i < |s| ==> IsWhitespace(s[i]))
            && (|r| > 0 ==> !IsWhitespace(r[|r| - 1]))
    decreases |s|
  {
    if |s| > 0 && IsWhitespace(s[|s| - 1]) {
      TrimEndSpec(s[..|s| - 1]);
      var r := TrimEnd(s);
      assert s[..|s| - 1][..|r|] == s[..|r|];
      forall i | |r| <= i < |s|
        ensures IsWhitespace(s[i])
      {
        if i < |s| - 1 {
          assert s[i] == s[..|s| - 1][i];
        }
      }
    }
  }

  /**
   * The trimmed string is a contiguous slice of the input with only
   * whitespace cut off either side; it neither starts nor ends with
   * whitespace, and it is empty exactly when the input is all whitespace.
   */
  lemma TrimSpec(s: string)
    ensures var r := Trim(s);
            && (exists a, b :: TrimmedAt(s, r, a, b))
            && (|r| > 0 ==> !IsWhitespace(r[0]) && !IsWhitespace(r[|r| - 1]))
            && (r == [] <==> forall i :: 0 <= i < |s| ==> IsWhitespace(s[i]))
  {
    var t := TrimStart(s);
    var r := TrimEnd(t);
    TrimStartSpec(s);
    TrimEndSpec(t);
    var a := |s| - |t|;
    var b := a + |r|;
    assert r == s[a..b] by {
      assert t == s[a..];
      assert r == t[..|r|];
    }
    forall i | b <= i < |s|
      ensures IsWhitespace(s[i])
    {
      assert s[i] == t[i - a];
    }
    assert r == Trim(s);
    assert TrimmedAt(s, Trim(s), a, b);
    if r != [] {
      assert s[|s| - |t|] == t[0] && t[0] == r[0];
    } else {
      assert |t| == 0;
    }
  }

  /** `r` is `s[a..b]`, and everything of `s` outside `a..b` is whitespace. */
  predicate TrimmedAt(s: string, r: string, a: int, b: int) {
    && 0 <= a <= b <= |s|
    && r == s[a..b]
    && (forall i :: 0 <= i < a ==> IsWhitespace(s[i]))
    && (forall i :: b <= i < |s| ==> IsWhitespace(s[i]))
  }

  /** Trimming twice is trimming once. */
  lemma TrimIdempotent(s: string)
    ensures Trim(Trim(s)) == Trim(s)
  {
    var r := Trim(s);
    TrimSpec(s);
    TrimStartOfTrimmed(r);
    TrimEndOfTrimmed(r);
  }

  lemma TrimStartOfTrimmed(s: string)
    requires |s| == 0 || !IsWhitespace(s[0])
    ensures TrimStart(s) == s
  {
  }

  lemma TrimEndOfTrimmed(s: string)
    requires |s| == 0 || !IsWhitespace(s[|s| - 1])
    ensures TrimEnd(s) == s
  {
  }

  /** `toLowerCase` on one character; only the ASCII letters are mapped. */
  function LowerChar(c: char): char {
    if 'A' <= c <= 'Z' then (c as int + 32) as char else c
  }

  /** `s.toLowerCase()` restricted to the ASCII mapping. */
  function Lower(s: string): (r: string)
    ensures |r| == |s|
  {
    seq(|s|, i requires 0 <= i < |s| => LowerChar(s[i]))
  }

  /** The case-insensitive identity of an item name: trimmed, then lower-cased. */
  function NameKey(s: string): string {
    Lower(Trim(s))
  }

  /** A key is stable under trimming the name first. */
  lemma NameKeyOfTrimmed(s: string)
    ensures NameKey(Trim(s)) == NameKey(s)
  {
    TrimIdempotent(s);
  }

  predicate IsPrefix(p: string, s: string) {
    |p| <= |s| && s[..|p|] == p
  }

  /** `hay.includes(needle)`, written as a scan from the left. */
  predicate Contains(hay: string, needle: string)
    decreases |hay|
  {
    IsPrefix(needle, hay) || (|hay| > 0 && Contains(hay[1..], needle))
  }

  /** `needle` occurs in `hay` starting at offset `i`. */
  predicate OccursAt(hay: string, needle: string, i: int) {
    0 <= i && i + |needle| <= |hay| && hay[i..i + |needle|] == needle
  }

  /** The scan finds the needle exactly when it occurs at some offset. */
  lemma {:induction false} ContainsIffOccurs(hay: string, needle: string)
    ensures Contains(hay, needle) <==> exists i :: OccursAt(hay, needle, i)
    decreases |hay|
  {
    if IsPrefix(needle, hay) {
      assert OccursAt(hay, needle, 0);
    } else if |hay| == 0 {
    } else {
      ContainsIffOccurs(hay[1..], needle);
      if Contains(hay[1..], needle) {
        var i :| OccursAt(hay[1..], needle, i);
        assert hay[i + 1..i + 1 + |needle|] == hay[1..][i..i + |needle|];
        assert OccursAt(hay, needle, i + 1);
      } else {
        forall i | 0 < i && i + |needle| <= |hay|
          ensures !OccursAt(hay, needle, i)
        {
          SliceOfTail(hay, i, i + |needle|);
          assert !OccursAt(hay[1..], needle, i - 1);
        }
        assert !OccursAt(hay, needle, 0);
      }
    }
  }

  lemma SliceOfTail(s: string, i: int, j: int)
    requires 0 < i <= j <= |s|
    ensures s[i..j] == s[1..][i - 1..j - 1]
  {
    forall k | 0 <= k < j - i
      ensures s[i..j][k] == s[1..][i - 1..j - 1][k]
    {
      assert s[1..][i - 1 + k] == s[i + k];
    }
  }

  /** Every string contains the empty string, so an empty search matches everything. */
  lemma ContainsEmpty(hay: string)
    ensures Contains(hay, "")
  {
    assert IsPrefix("", hay);
  }

  /** One position of an anchored regular expression without repetition. */
  datatype Atom = AnyDigit | Literal(c: char)

  predicate IsDigit(c: char) {
    '0' <= c <= '9'
  }

  predicate AtomMatches(a: Atom, c: char) {
    match a
    case AnyDigit => IsDigit(c)
    case Literal(l) => c == l
  }

  /** Anchored match: the pattern consumes the whole string. */
  predicate MatchesExactly(p: seq<Atom>, s: string)
    decreases |p|
  {
    if |p| == 0 then |s| == 0
    else |s| > 0 && AtomMatches(p[0], s[0]) && MatchesExactly(p[1..], s[1..])
  }

  /** `^\d{4}-\d{2}-\d{2}$` as a sequence of atoms. */
  const IsoDatePattern: seq<Atom> :=
    [AnyDigit, AnyDigit, AnyDigit, AnyDigit, Literal('-'),
     AnyDigit, AnyDigit, Literal('-'), AnyDigit, AnyDigit]

  predicate IsIsoDate(s: string) {
    MatchesExactly(IsoDatePattern, s)
  }

  lemma {:induction false} MatchesExactlyPointwise(p: seq<Atom>, s: string)
    ensures MatchesExactly(p, s) <==>
              |p| == |s| && forall i :: 0 <= i < |s| ==> AtomMatches(p[i], s[i])
    decreases |p|
  {
    if |p| > 0 && |s| > 0 {
      MatchesExactlyPointwise(p[1..], s[1..]);
      if |p| == |s| && forall i :: 0 <= i < |s| ==> AtomMatches(p[i], s[i]) {
        assert forall i :: 0 <= i < |s| - 1 ==> AtomMatches(p[1..][i], s[1..][i]) by {
          forall i | 0 <= i < |s| - 1
            ensures AtomMatches(p[1..][i], s[1..][i])
          {
            assert p[1..][i] == p[i + 1] && s[1..][i] == s[i + 1];
          }
        }
      }
      if MatchesExactly(p, s) {
        forall i | 0 <= i < |s|
          ensures AtomMatches(p[i], s[i])
        {
          if i > 0 {
            assert p[1..][i - 1] == p[i] && s[1..][i - 1] == s[i];
          }
        }
      }
    }
  }

  /** The date pattern accepts exactly ten characters `dddd-dd-dd` with ASCII digits. */
  lemma IsoDateShape(s: string)
    ensures IsIsoDate(s) <==>
              && |s| == 10 && s[4] == '-' && s[7] == '-'
              && forall i :: 0 <= i < 10 && i != 4 && i != 7 ==> IsDigit(s[i])
  {
    MatchesExactlyPointwise(IsoDatePattern, s);
  }
}
